=== FILE: README.md ===
# Crownpack front end: list, report and import page logic in Dafny

This project models the rule-bearing logic of four React pages of an accounting
master-data front end:

- **The master list viewer** (`ViewFetchMaster`). It lists main groups, sub-groups, ledgers or
  divisions and filters them with a case-insensitive search over configured
  fields. It moves a selection cursor with the arrow keys and opens the
  selected record with Enter. For ledgers it can toggle between the normal
  list (`/ledgers`) and the consolidated list (`/consolidated`).
- **The ledger consolidation page** (`LedgerConsolidatePage`). This is a near copy of the viewer:
  it has the same filter, cursor and title formatter, and its own configuration
  table. Its item-click dispatch names none of its configured page types.
- **The consolidation report** (`LedgerConsolidationReport`). It loads the consolidation
  record of one ledger and shows ten read-only inputs. Enter and Backspace move
  the focus between them, and Backspace inside an input deletes the
  character before the caret.
- **The Excel import page** (`ImportExcelPage`). It handles the choice of target table and Excel
  file, the checks before upload, the status line built from the server's
  answer, the status colour and the table accent colours.

Everything is pure functions over immutable values. Page state is a datatype.
Each handler or effect is a function from the old state to the new state. The
answers of the backend are parameters.

| file | module | what it holds |
|---|---|---|
| `options.dfy` | `Options` | `Option`, for `undefined`/`null` |
| `js_values.dfy` | `JsValues` | JavaScript values, truthiness, `String(v)` |
| `text.dfy` | `Text` | `trim`, `toLowerCase`/`toUpperCase` (ASCII), `includes`, `split`/`join` |
| `master_list.dfy` | `MasterList` | filter, selection cursor and `formatType` shared by the two list pages |
| `master_viewer.dfy` | `MasterViewer` | `ViewFetchMaster`: configuration, toggle, fetch/search transitions, navigation |
| `consolidate_page.dfy` | `ConsolidatePage` | `LedgerConsolidatePage`: configuration and click dispatch |
| `consolidation_report.dfy` | `ConsolidationReport` | `LedgerConsolidationReport`: loading and the read-only form |
| `import_excel.dfy` | `ImportExcel` | `ImportExcelPage` |

The two list pages share `filterData`, the arrow/Enter handler and
`formatType` character for character, so `MasterList` defines them once.
Both page modules use them.

## Model

| member | source | states |
|---|---|---|
| `JsValues.ToString` | src/components/ViewFetchMaster.jsx:163 | the string form of a string value is the string itself. A number's form is its decimal notation: it is non-empty, starts with '-' exactly for negatives, and its digits after any '-' read back as the number's magnitude, with no leading zero, so 7 prints as "7" and never "07" |
| `JsValues.NatToString` | src/components/ViewFetchMaster.jsx:163 | a number's decimal form is non-empty, all digits, without a leading zero |
| `JsValues.ParseNatToString` | src/components/ViewFetchMaster.jsx:163 | the decimal form of a number reads back as the same number, so the conversion loses nothing |
| `JsValues.IntToStringReadsBack` | src/components/ViewFetchMaster.jsx:163 | for every integer, the digits after any '-' are decimal digits that read back as its magnitude |
| `Text.TrimStart` | src/components/ViewFetchMaster.jsx:157 | the result is a suffix of the input, everything dropped is white space, and it does not start with white space |
| `Text.TrimEnd` | src/components/ViewFetchMaster.jsx:157 | the result is a prefix of the input, everything dropped is white space, and it does not end with white space |
| `Text.TrimEmptyIffBlank` | src/components/ViewFetchMaster.jsx:157 | `searchValue.trim() === ''` holds exactly when every character of the query is white space |
| `Text.Lower` | src/components/ViewFetchMaster.jsx:163 | lower-casing keeps the length and maps each character on its own |
| `Text.Upper` | src/components/ViewFetchMaster.jsx:214 | upper-casing keeps the length and maps each character on its own |
| `Text.Split` | src/components/ViewFetchMaster.jsx:213 | splitting on a character gives at least one part, and no part contains the separator |
| `Text.JoinSplit` | src/components/ViewFetchMaster.jsx:212-215 | joining the parts of a split with the same separator restores the string |
| `Text.SplitJoin` | src/components/ViewFetchMaster.jsx:212-215 | splitting a join of separator-free parts restores the parts |
| `MasterList.AnyFieldMatches` | src/components/ViewFetchMaster.jsx:161-164 | the `.some` scan is true exactly when some configured field is truthy and its lower-cased text includes the lower-cased query |
| `MasterList.KeepMatching` | src/components/ViewFetchMaster.jsx:160-165 | the `Array.filter` pass returns an order-preserving sub-list. Each matching item occurs in it exactly as often as in the input, and no other item occurs |
| `MasterList.FilterData` | src/components/ViewFetchMaster.jsx:153-169 | no configuration or no data gives []. A query that is blank after trimming returns the data unchanged. Otherwise the result is an order-preserving sub-list holding every item whose field matches the untrimmed query, as often as the data holds it, and nothing else. `LedgerConsolidatePage.jsx:154-170` is the same code |
| `MasterList.FilterIsSubsequence` | src/components/ViewFetchMaster.jsx:155-166 | whatever the query, the filtered list is a sub-list of the data |
| `MasterList.FilterIdempotent` | src/components/ViewFetchMaster.jsx:160-165 | filtering an already filtered list with the same query changes nothing |
| `MasterList.FilterNarrowing` | src/components/ViewFetchMaster.jsx:199-204 | typing more characters into the search box only narrows the list: the new result is a sub-list of the old |
| `MasterList.MatchNarrowing` | src/components/ViewFetchMaster.jsx:163 | an item matching a query also matches every prefix of that query |
| `MasterList.UntrimmedQueryMatters` | src/components/ViewFetchMaster.jsx:157-163 | the query is trimmed only for the blank test: a non-blank term that starts with white space matches no item whose configured fields' string forms hold no white space, and the filter drops every such item (" abc" does not find "abc") |
| `MasterList.CursorStaysInList` | src/components/ViewFetchMaster.jsx:93-109 | on a non-empty list, ArrowUp (`max(0, i-1)`) and ArrowDown (`min(len-1, i+1)`) keep an index in [0, len), moving one step or stopping at the end |
| `MasterList.CursorDownOnEmptyList` | src/components/ViewFetchMaster.jsx:104-106 | on an empty list ArrowDown sets the index to -1 |
| `MasterList.CursorUpDownInverse` | src/components/ViewFetchMaster.jsx:95-106 | away from the ends of the list, Up undoes Down and Down undoes Up |
| `MasterList.CursorUp` | src/components/ViewFetchMaster.jsx:96 | the new index is the larger of 0 and the old index minus one |
| `MasterList.CursorDown` | src/components/ViewFetchMaster.jsx:105 | the new index is the smaller of the list's last index and the old index plus one |
| `MasterList.ListKey` | src/components/ViewFetchMaster.jsx:91-125 | ArrowUp gives `max(0, i-1)` and ArrowDown `min(len-1, i+1)`. Enter activates iff the selected element exists, and then activates that element at that index. Escape, and only Escape, leaves. Other keys keep the index. The index stays in range on a non-empty list, and in {-1, 0} on an empty one |
| `MasterList.UpperWord` | src/components/ViewFetchMaster.jsx:214 | upper-casing the first character and the rest separately is upper-casing the whole word |
| `MasterList.FormatIsSpaced` | src/components/ViewFetchMaster.jsx:212-215 | split on '_', upper-case each word, join with ' ' is the same as turning every '_' into a space and upper-casing every letter |
| `MasterList.FormatType` | src/components/ViewFetchMaster.jsx:210-216 | a missing or empty string gives ''. Otherwise the output has the input's length, has a space where the input has '_', and has the upper-cased character everywhere else. `LedgerConsolidatePage.jsx:216-222` is the same code |
| `MasterList.FormatTypeWords` | src/components/ViewFetchMaster.jsx:212-215 | for a space-free type, the words of the title are exactly the upper-cased '_'-separated words |
| `MasterViewer.ModuleFor` | src/components/ViewFetchMaster.jsx:20-81 | a configuration exists exactly for 'main-group', 'sub-group', 'ledger' and 'division' |
| `MasterViewer.EndpointChoice` | src/components/ViewFetchMaster.jsx:48 | the ledger endpoint is '/consolidated' iff the view is active and '/ledgers' iff it is inactive; no other type depends on the view |
| `MasterViewer.PendingRequest` | src/components/ViewFetchMaster.jsx:172-196 | a fetch is issued iff there is a configured page type and nothing has been fetched yet, and it goes to the configuration's endpoint |
| `MasterViewer.StartFetch` | src/components/ViewFetchMaster.jsx:176-178 | the fetch starts by setting loading and clearing the old error, and touches neither the list nor the selection |
| `MasterViewer.Refilter` | src/components/ViewFetchMaster.jsx:147-165 | the search effect does nothing without data. A blank term hands back `data` itself, which changes nothing when it is already shown, so the selection survives. Otherwise the shown list becomes the filter's result: all data for a blank term, else each matching item as often as in the data, in order. That new array resets the selection to 0 |
| `MasterViewer.ReceiveFetch` | src/components/ViewFetchMaster.jsx:172-204 | a fetched list becomes `data` and marks the page fetched. The search effect that follows shows all of it for a blank search term. For a term kept from before a toggle it shows exactly its matching items, with their multiplicities. A failure empties both lists and sets "Failed to fetch <title>". After a success `filteredData` is the fetched array itself exactly when the term is blank or the list is empty, so a later blank search keeps the selection. A failure writes two distinct empty arrays. Either way loading ends and the selection goes back to 0 |
| `MasterViewer.SearchChange` | src/components/ViewFetchMaster.jsx:147-208 | only the term, the shown list and the selection can change: page type, view, data, fetch state, loading and error stay. With no data the list and selection are left alone. A blank term while the data itself is shown changes only the term. Otherwise the shown list becomes the filter's result (all data for a blank term, else each matching item as often as in the data, in order) and the selection is reset |
| `MasterViewer.ToggleView` | src/components/ViewFetchMaster.jsx:256-269 | the toggle exists only on the ledger page (line 265) and only when nothing is loading. It flips the view, clears `data`, `filteredData` and `hasFetched`, and keeps the term, the loading flag and the error |
| `MasterViewer.ToggleTwice` | src/components/ViewFetchMaster.jsx:256-261 | toggling twice is the identity on everything but the cleared fetch state |
| `MasterViewer.ToggleRequestsOtherList` | src/components/ViewFetchMaster.jsx:45-58 | on the ledger page a toggle makes the page fetch the other list: '/ledgers' after the consolidated view, '/consolidated' after the normal one |
| `MasterViewer.FetchedDataIsNotRefetched` | src/components/ViewFetchMaster.jsx:173 | after a successful fetch, searching and key presses issue no new request |
| `MasterViewer.ItemRoute` | src/components/ViewFetchMaster.jsx:218-253 | a click navigates exactly for the four configured page types: main groups to '/master-group-view/<item_code>', sub-groups to '/sub-group-view/<customer_code>', ledgers to '/consolidated/ledger/<ledger_code>', divisions to '/division-view/<id>' |
| `MasterViewer.ClickItem` | src/components/ViewFetchMaster.jsx:235-253 | a click changes only the selected index, and navigates to the clicked element's route, which exists iff the page type is configured |
| `MasterViewer.PressKey` | src/components/ViewFetchMaster.jsx:91-125 | only the selection changes: ArrowUp to `max(0, i-1)`, ArrowDown to `min(len-1, i+1)`, other keys not at all. A key navigates only on Enter with an existing selected element, and then to that element's route. Escape, and only Escape, goes back |
| `MasterViewer.InitValid` | src/components/ViewFetchMaster.jsx:7-15 | the initial state is valid |
| `MasterViewer.TransitionsPreserveValid` | src/components/ViewFetchMaster.jsx:148-204 | fetch start and completion, search, the ledger page's toggle, key press and click all keep the shown list a sub-list of the data (the data itself when it is the same array) and the selection on an element, or at 0 or -1 when the list is empty |
| `MasterViewer.AfterRenderAsWritten` | src/components/ViewFetchMaster.jsx:81-204 | as written, the search effect runs after every render: it leaves the page alone exactly when it would hand back the array already shown, and otherwise resets the selection |
| `MasterViewer.RendersAsWritten` | src/components/ViewFetchMaster.jsx:199-204 | any number of renders as written leaves the data, the term, the page type and the view alone |
| `MasterViewer.SearchLoopsAsWritten` | src/components/ViewFetchMaster.jsx:152-204 | as written, with data and a non-blank term, every render's search effect updates the state again, so the page never settles, and every render leaves the selection at 0 |
| `MasterViewer.ArrowDownUndoneAsWritten` | src/components/ViewFetchMaster.jsx:102-109 | as written, during a non-blank search ArrowDown moves the selection from 0 to 1 and the render it causes moves it back to 0 |
| `MasterViewer.AfterRender` | src/components/ViewFetchMaster.jsx:199-204 | with the schedule the dependency list asks for, the search effect leaves the page alone unless the term or the data changed |
| `MasterViewer.ArrowKeysKept` | src/components/ViewFetchMaster.jsx:91-125 | with that schedule, a key press is not undone by the render it causes: ArrowDown moves to i+1 and ArrowUp to i-1 away from the ends |
| `MasterViewer.SearchSettles` | src/components/ViewFetchMaster.jsx:199-204 | with that schedule, a new term runs the search effect once, with the result `SearchChange` describes, and the page then settles |
| `ConsolidatePage.ModuleFor` | src/components/LedgerConsolidatePage.jsx:19-69 | a configuration exists exactly for the four list types, and the third searched field is always 'report' |
| `ConsolidatePage.ItemRoute` | src/components/LedgerConsolidatePage.jsx:224-259 | a click navigates exactly for 'inventory' ('/inventory-view/<item_code>'), 'customer' ('/customer-view/<customer_code>'), 'distributor' ('/distributor-view/<id>') and 'corporate' ('/corporate-view/<id>'), and never goes back |
| `ConsolidatePage.PressKey` | src/components/LedgerConsolidatePage.jsx:88-124 | only the selection changes: ArrowUp to `max(0, i-1)`, ArrowDown to `min(len-1, i+1)`, other keys not at all. Enter on an existing element follows that element's click route, and no other key navigates to an item. Escape, and only Escape, goes back |
| `ConsolidatePage.ConfiguredPagesNeverNavigate` | src/components/LedgerConsolidatePage.jsx:241-259 | on every configured page type, click and Enter navigate nowhere and only set the selected index |
| `ConsolidatePage.ClickTypesHaveNoList` | src/components/LedgerConsolidatePage.jsx:156 | the page types that would navigate have no configuration, so their filtered list is always empty |
| `ConsolidationReport.ReportRequest` | src/components/LedgerConsolidationReport.jsx:43-45 | a request for '/consolidated/ledger/<code>' is made iff the ledger code is present and non-empty |
| `ConsolidationReport.ReceiveReport` | src/components/LedgerConsolidationReport.jsx:30-38 | a non-empty array selects its first element and no error. An empty or non-array body gives "No consolidation data found for this ledger.". A failed request gives "Failed to fetch consolidation data". Loading ends |
| `ConsolidationReport.LoadReport` | src/components/LedgerConsolidationReport.jsx:20-46 | without a ledger code the page stays loading, with no record and no error. With one it ends in the state `ReceiveReport` gives: the array's first record, or the no-data or fetch-failure message. So it ends with exactly one of a record or an error, and has a record iff the body was a non-empty array |
| `ConsolidationReport.Shown` | src/components/LedgerConsolidationReport.jsx:90-135 | with no record every input is empty. With a record, every input but Main Group Name shows the value's string form when it is truthy, and nothing when it is falsy. Main Group Name has no `\|\| ''` fallback, so it shows nothing only for undefined or null, and otherwise the string form: '' stays empty and 0 shows as "0" |
| `ConsolidationReport.MountedForm` | src/components/LedgerConsolidationReport.jsx:13-18 | on mount, before the record arrives, the ten inputs are empty and the first is focused with the caret at 0 |
| `ConsolidationReport.ShowRecord` | src/components/LedgerConsolidationReport.jsx:90-135 | writing the record's texts into the inputs keeps the focus. It moves the focused caret to the end of a changed text, as the HTML value setter does, and keeps it for an unchanged one |
| `ConsolidationReport.OpenForm` | src/components/LedgerConsolidationReport.jsx:13-46 | once the load has finished, the form holds the record's ten texts with the first input focused and its caret at the end of its text |
| `ConsolidationReport.DeleteBefore` | src/components/LedgerConsolidationReport.jsx:68 | deleting before caret s shortens the text by exactly one, and keeps the characters before s-1 and from s on. Positions count characters, where `slice` counts UTF-16 code units |
| `ConsolidationReport.DeleteBeforeUndone` | src/components/LedgerConsolidationReport.jsx:68 | putting the deleted character back at s-1 restores the text |
| `ConsolidationReport.KeyDownLedger` | src/components/LedgerConsolidationReport.jsx:48-77 | the form stays valid. Enter moves to index+1 with caret 0 iff that input exists. Backspace at caret 0 moves to index-1, and does nothing on the first input. Backspace at caret s>0 replaces the focused text by `slice(0, s-1) + slice(s)`, leaves every other input alone and moves the caret to s-1. The caret counts characters, where `selectionStart` counts UTF-16 code units. Escape goes back |
| `ConsolidationReport.FirstBackspaceDeletesLast` | src/components/LedgerConsolidationReport.jsx:60-72 | on the loaded page, with a non-empty ledger code, the first Backspace deletes the code's last character and keeps the focus |
| `ConsolidationReport.Run` | src/components/LedgerConsolidationReport.jsx:48-77 | any sequence of key presses keeps the form valid and the number of inputs unchanged |
| `ConsolidationReport.EnterWalksDown` | src/components/LedgerConsolidationReport.jsx:52-59 | n Enters move the focus n inputs down, stopping at the last, and never edit a text |
| `ConsolidationReport.EnterStaysAtLast` | src/components/LedgerConsolidationReport.jsx:56 | on the last input Enter changes nothing |
| `ConsolidationReport.BackspaceWalksUp` | src/components/LedgerConsolidationReport.jsx:60-66 | n Backspaces at caret 0 move the focus n inputs up, stopping at the first, and never edit a text |
| `ImportExcel.SelectFile` | src/components/ImportExcelPage.jsx:37-50 | the file changes only to an Excel file (either MIME type), which also clears the status. Another type keeps the file and sets the invalid-file error. No file changes nothing |
| `ImportExcel.SelectTable` | src/components/ImportExcelPage.jsx:134-139 | selecting a table clears both the status and the file |
| `ImportExcel.StartImport` | src/components/ImportExcelPage.jsx:52-64 | no table is refused with the table message even when no file is chosen. A table without a file is refused with the file message. Only table and file together start the upload, to the table's URL, with loading set and the in-progress status |
| `ImportExcel.SuccessStatus` | src/components/ImportExcelPage.jsx:78-83 | an accepted upload's status starts with the check mark |
| `ImportExcel.SuccessStatusFirstError` | src/components/ImportExcelPage.jsx:78-83 | the summary line gets " - First error: <errors[0]>" appended iff the server reported a non-empty `errors` |
| `ImportExcel.FinishImport` | src/components/ImportExcelPage.jsx:77-93 | loading ends. An accepted upload shows the summary and clears the file. A refused upload shows "Error: <error>" and keeps the file. An unreachable server shows the network error and keeps the file |
| `ImportExcel.ButtonMatchesChecks` | src/components/ImportExcelPage.jsx:171 | the import button is enabled iff the form is idle and the import checks would let the upload start |
| `ImportExcel.NoResubmitAfterSuccess` | src/components/ImportExcelPage.jsx:77-85 | an accepted upload clears the file, so right after it the button is disabled |
| `ImportExcel.DisabledUntilFileChosen` | src/components/ImportExcelPage.jsx:37-171 | without a file the button is disabled. Choosing a table, trying to import and finishing an import never bring a file back. Only choosing an Excel file, with a table chosen and nothing loading, can enable the button |
| `ImportExcel.InitialIsIdle` | src/components/ImportExcelPage.jsx:6-9 | the page opens with no file and a disabled button, and an import attempt then asks for a table |
| `ImportExcel.HoldsExcelPreserved` | src/components/ImportExcelPage.jsx:37-50 | every handler keeps the held file, if any, an Excel file |
| `ImportExcel.StatusSeverity` | src/components/ImportExcelPage.jsx:180-188 | no panel for an empty status. Otherwise green iff the status includes the check mark, else red iff it includes the cross mark, else blue |
| `ImportExcel.IncludesOneChar` | src/components/ImportExcelPage.jsx:183 | `includes` of a one-character string is membership of that character |
| `ImportExcel.StatusColours` | src/components/ImportExcelPage.jsx:47-90 | each refusal and error message the page writes shows red; the in-progress line shows blue |
| `ImportExcel.AcceptedIsGreen` | src/components/ImportExcelPage.jsx:78-80 | an accepted upload always shows green, whatever the server's message |
| `ImportExcel.RefusedColour` | src/components/ImportExcelPage.jsx:87 | a refused upload shows red unless the server's error text itself contains the check mark, which then makes it green |
| `ImportExcel.FindTable` | src/components/ImportExcelPage.jsx:97 | `find` returns the first table with the value, and none iff no table has it |
| `ImportExcel.TableColor` | src/components/ImportExcelPage.jsx:96-99 | the colour of the table with that value, and 'gray' when no table has it |
| `ImportExcel.TableColors` | src/components/ImportExcelPage.jsx:11-16 | blue, purple, green and indigo for the four tables, gray for no table |

## Left out

- The batch ledger-consolidation workflow is described for this system: draft rows, a new row on activation, uniqueness of active links, and create/merge/demerge commits with partial failure. It does not appear in these source files. `LedgerConsolidatePage.jsx` is a copy of the list viewer, so the workflow is not modelled.
- Network calls (`api.get`, `fetch`, `FormData`, `response.json()`) are not modelled. Their outcomes are parameters (`FetchOutcome`, `ReportOutcome`, `ImportResponse`). A JSON parse failure after an answer is folded into `Unreachable`, because the source's `catch` treats it like a network error.
- React effect scheduling is modelled only as far as the transitions and the section under Findings go. Each transition applies the effects it triggers once. The reset of `selectedIndex` on a new `filteredData` array is folded into the transitions that hand React a new array. Array identity is tracked only for `filteredData === data`.
- MasterViewer.Refilter: the search loop under Findings is modelled separately (`AfterRenderAsWritten`). `Refilter` runs the effect once per change of term or data, as its dependency list intends.
- MasterViewer.SearchChange: likewise follows the intended schedule. As written, a non-blank term keeps re-rendering and keeps the selection at 0 (Findings).
- MasterViewer.PressKey: likewise; as written, during a non-blank search the render after an arrow key puts the selection back at 0 (Findings).
- MasterViewer.PendingRequest: the fetch effect also re-runs after each render while `hasFetched` is false, because `currentModule` is a new object every render. After a toggle, the render caused by `setLoading(true)` can therefore send the request a second time. The model sends it once and does not order overlapping responses. After a failed fetch `hasFetched` stays false (lines 185-196), so the render caused by the failure starts the fetch again at once. The error panel (line 412) then gives way to the loading view for each retry, and the model's single `ReceiveFetch` failure does not show this repetition.
- MasterViewer.ModuleFor: `moduleConfig[type]` also finds keys inherited from `Object.prototype`, such as 'constructor' or 'toString'. For such a URL the real page has a truthy module without an endpoint. The model treats every type outside the four as unconfigured.
- ConsolidatePage.ModuleFor: the same inherited-key lookup is not modelled, for the same reason.
- DOM focus and scrolling (`focus`, `scrollIntoView`, `setSelectionRange` as a side effect), `window` listeners, `navigate(-1)` and `document.getElementById(...).value = ''` are browser plumbing. Leaving is the `Back` navigation value.
- JSX rendering, class strings, `MainPage.jsx` and `App.jsx` have no logic beyond static links and routes.
- The router in `App.jsx` mounts `LedgerConsolidatePage` at '/ledger-consolidate', with no `:type` parameter. As routed, its `type` is always undefined, so no fetch runs and the page stays loading. Its configured-type states (`ConsolidatePage.ConfiguredPagesNeverNavigate`) are reachable only through a route that supplies a type. `LedgerConsolidationReport` has no route, and neither do the viewer's click targets ('/consolidated/ledger/…', '/master-group-view/…' and the others). The model treats each page on its own, with its route parameters as inputs.
- Text.Lower: only ASCII letters change case. Full Unicode `toLowerCase` (which may change lengths) is not modelled.
- Text.Upper: only ASCII letters change case, for the same reason.
- JsValues.ToString: numbers are integers only. Fractions, `NaN` and `Infinity` are not modelled, and objects and arrays all print as "[object Object]". Integers are printed in full at any size. JavaScript switches to exponent form at 10^21 ("1e+21") and loses exactness above 2^53, so the model's text differs from the page's for such magnitudes.
- ConsolidationReport.DeleteBefore: positions and `slice` count characters here and UTF-16 code units in the page. They agree only on text without characters above U+FFFF. For a text ending in such a character (U+1F600, say) the page's Backspace removes only its low surrogate and leaves a lone surrogate, which a Dafny string cannot hold. The model removes the whole character.
- ConsolidationReport.KeyDownLedger: the caret is a character index here, while `selectionStart` and `setSelectionRange` (lines 50 and 72) count UTF-16 code units. The two agree only on text without characters above U+FFFF.
- ConsolidationReport.KeyDownLedger: the browser's own handling of other keys is not modelled. ArrowLeft/ArrowRight, Home/End and mouse clicks move the caret, and Tab moves the focus. The model leaves the form unchanged for every key but Enter, Backspace and Escape. Only the caret position is tracked, not a selected range. The handler's write to `e.target.value` is modelled as the input's new text. In the real page React would restore the read-only input's value on the next render.
- ConsolidationReport.Shown: React's handling of `value={undefined}` (an uncontrolled input) is not modelled. For Main Group Name, a non-nullish falsy value is assumed to be shown as its string form.
- MasterList.ListKey: Enter treats every list element as truthy, because fetched records are objects.
- Records are assumed to be objects, so `!dataToFilter` is only the missing-array case (`None`).

## Findings

| source | as written | input that shows it | evidently intended | confidence | as-written member | corrected member |
|---|---|---|---|---|---|---|
| src/components/ViewFetchMaster.jsx:81-204 | `currentModule` (line 81) is a fresh object on every render, so `filterData` (a `useCallback` on it) is too. The search effect depends on `filterData`, so it runs after every render. A non-blank term makes `.filter` build a new array on each run, which is a state update, which is another render. The page never settles, and the reset effect puts the selection back at 0 after every key press. `LedgerConsolidatePage.jsx:79-210` has the same code | data loaded, search term "a", ArrowDown pressed with the selection at 0 | the effect runs only when the term or the data change, so the arrow keys move the selection during a search | medium, not executed | `MasterViewer.AfterRenderAsWritten` (with `MasterViewer.SearchLoopsAsWritten` and `MasterViewer.ArrowDownUndoneAsWritten`) | `MasterViewer.AfterRender` (with `MasterViewer.ArrowKeysKept` and `MasterViewer.SearchSettles`) |

=== FILE: consolidate_page.dfy ===
/** The ledger consolidation page (`LedgerConsolidatePage`). Despite its name it
    is a copy of the master list viewer: the same filter, cursor and title
    formatter (taken from MasterList), its own configuration table, and an
    item-click dispatch whose cases name none of its configured page types. */
module ConsolidatePage {
  import opened Options
  import opened JsValues
  import opened MasterList

  /** The page types with a configuration. */
  const ConfiguredTypes: set<string> := {"main-group", "sub-group", "ledger", "division"}

  /** The page types `handleItemClick` navigates for. */
  const ClickTypes: set<string> := {"inventory", "customer", "distributor", "corporate"}

  /** `moduleConfig[type]`: unlike the viewer, the ledger list always comes from
      '/ledgers' and its report field is 'report'. */
  function ModuleFor(pageType: string): (m: Option<ModuleConfig>)
    ensures m.Some? <==> pageType in ConfiguredTypes
    ensures m.Some? ==> |m.value.fields| >= 4 && m.value.fields[2] == "report"
  {
    if pageType == "main-group" then
      Some(ModuleConfig("Main Group Items", "/main_groups", "MainGroupNames",
                        ["main_group_name", "main_group_code", "report", "status"]))
    else if pageType == "sub-group" then
      Some(ModuleConfig("Sub Group Items", "/sub_groups", "SubGroupNames",
                        ["sub_group_name", "sub_group_code", "report", "status"]))
    else if pageType == "ledger" then
      Some(ModuleConfig("Ledgers", "/ledgers", "LedgerNames",
                        ["ledger_name", "ledger_code", "report", "status", "link_status"]))
    else if pageType == "division" then
      Some(ModuleConfig("Divisions", "/divisions", "DivisionNames",
                        ["division_name", "division_code", "report", "status"]))
    else None
  }

  /** `handleItemClick`'s navigation. The corporate case falls through to
      `default`, which does nothing more. */
  function ItemRoute(pageType: Option<string>, item: Item): (nav: Navigation)
    ensures nav.Go? <==> pageType.Some? && pageType.value in ClickTypes
    ensures !nav.Back?
    ensures pageType == Some("inventory") ==> nav == Go("/inventory-view/" + ToString(Field(item, "item_code")))
    ensures pageType == Some("customer") ==> nav == Go("/customer-view/" + ToString(Field(item, "customer_code")))
    ensures pageType == Some("distributor") ==> nav == Go("/distributor-view/" + ToString(Field(item, "id")))
    ensures pageType == Some("corporate") ==> nav == Go("/corporate-view/" + ToString(Field(item, "id")))
  {
    if pageType == Some("inventory") then Go("/inventory-view/" + ToString(Field(item, "item_code")))
    else if pageType == Some("customer") then Go("/customer-view/" + ToString(Field(item, "customer_code")))
    else if pageType == Some("distributor") then Go("/distributor-view/" + ToString(Field(item, "id")))
    else if pageType == Some("corporate") then Go("/corporate-view/" + ToString(Field(item, "id")))
    else Stay
  }

  /** The list state of the page that its key handler touches. */
  datatype ListState = ListState(pageType: Option<string>, filtered: seq<Item>, selected: int)

  /** The window key handler: cursor moves, Enter runs `handleItemClick` on an
      existing element, Escape leaves. */
  function PressKey(s: ListState, key: Key): (r: (ListState, Navigation))
    ensures r.0.pageType == s.pageType && r.0.filtered == s.filtered
    ensures r.1.Back? <==> key == Escape
    ensures r.1.Go? ==> key == Enter && 0 <= s.selected < |s.filtered|
    ensures 0 <= s.selected < |s.filtered| ==> 0 <= r.0.selected < |s.filtered|
    ensures key == ArrowUp ==> r.0.selected == CursorUp(s.selected)
    ensures key == ArrowDown ==> r.0.selected == CursorDown(s.selected, |s.filtered|)
    ensures key != ArrowUp && key != ArrowDown ==> r.0.selected == s.selected
    ensures key == Enter && 0 <= s.selected < |s.filtered| ==>
      r.1 == ItemRoute(s.pageType, s.filtered[s.selected])
  {
    var step := ListKey(key, s.filtered, s.selected);
    match step.effect
    case NoEffect => (s.(selected := step.selected), Stay)
    case Leave => (s.(selected := step.selected), Back)
    case Activate(item, index) => (s.(selected := index), ItemRoute(s.pageType, item))
  }

  /** On every page type the page is configured for, neither a click nor Enter
      navigates anywhere: the only thing they change is the selected index. */
  lemma ConfiguredPagesNeverNavigate(s: ListState, key: Key, item: Item)
    requires s.pageType.Some? && s.pageType.value in ConfiguredTypes
    ensures ItemRoute(s.pageType, item) == Stay
    ensures key != Escape ==> PressKey(s, key).1 == Stay
  {
  }

  /** Conversely, a page type that navigates on click has no configuration, so
      its list is always empty and Enter never reaches the click handler. */
  lemma ClickTypesHaveNoList(pageType: string, data: seq<Item>, query: string)
    requires pageType in ClickTypes
    ensures ModuleFor(pageType).None?
    ensures FilterData(ModuleFor(pageType), Some(data), query) == []
  {
    assert pageType !in ConfiguredTypes;
  }
}

=== FILE: consolidation_report.dfy ===
/** The consolidation report page (`LedgerConsolidationReport`): it loads the
    consolidation record of one ledger and shows it in ten read-only inputs,
    between which Enter and Backspace move the focus. */
module ConsolidationReport {
  import opened Options
  import opened JsValues
  import opened MasterList

  const NoDataMessage: string := "No consolidation data found for this ledger."
  const FetchFailedMessage: string := "Failed to fetch consolidation data"

  /** The JSON body of the response: an array of records, or anything else. */
  datatype Payload = ArrayPayload(items: seq<Item>) | NotAnArray

  /** What became of the request. */
  datatype ReportOutcome = Responded(payload: Payload) | RequestFailed

  /** `consolidationData`, `loading` and `error`. */
  datatype Report = Report(record: Option<Item>, loading: bool, error: Option<string>)

  const Initial: Report := Report(None, true, None)

  /** The path requested for the route's `ledger_code`; nothing is requested
      when the code is missing or empty. */
  function ReportRequest(ledgerCode: Option<string>): (r: Option<string>)
    ensures r.Some? <==> ledgerCode.Some? && ledgerCode.value != ""
    ensures r.Some? ==> r.value == "/consolidated/ledger/" + ledgerCode.value
  {
    if ledgerCode.None? || ledgerCode.value == "" then None
    else Some("/consolidated/ledger/" + ledgerCode.value)
  }

  /** The page state once the request has completed: the first record of a
      non-empty array, or an error message. */
  function ReceiveReport(outcome: ReportOutcome): (r: Report)
    ensures !r.loading
    ensures r.record.Some? <==> outcome.Responded? && outcome.payload.ArrayPayload? && |outcome.payload.items| > 0
    ensures r.record.Some? ==> r.record.value == outcome.payload.items[0] && r.error.None?
    ensures r.record.None? && outcome.Responded? ==> r.error == Some(NoDataMessage)
    ensures outcome.RequestFailed? ==> r.error == Some(FetchFailedMessage)
  {
    match outcome
    case RequestFailed => Report(None, false, Some(FetchFailedMessage))
    case Responded(payload) =>
      if payload.ArrayPayload? && |payload.items| > 0 then Report(Some(payload.items[0]), false, None)
      else Report(None, false, Some(NoDataMessage))
  }

  /** The load effect: without a ledger code no request is made and the page
      stays in its initial, loading state whatever the backend would have said. */
  function LoadReport(ledgerCode: Option<string>, outcome: ReportOutcome): (r: Report)
    ensures ReportRequest(ledgerCode).None? ==> r.loading && r.record.None? && r.error.None?
    ensures ReportRequest(ledgerCode).Some? ==> !r.loading && (r.record.Some? != r.error.Some?)
    ensures r.record.Some? <==> (ReportRequest(ledgerCode).Some? && outcome.Responded?
                                 && outcome.payload.ArrayPayload? && |outcome.payload.items| > 0)
    ensures ReportRequest(ledgerCode).Some? ==> r == ReceiveReport(outcome)
  {
    if ReportRequest(ledgerCode).None? then Initial else ReceiveReport(outcome)
  }

  // ---------------------------------------------------------------------------
  // The read-only form

  /** The record fields behind the ten inputs, top to bottom. */
  const FieldKeys: seq<string> := [
    "ledger_code", "ledger_name", "sub_group_code", "sub_group_name",
    "main_group_code", "main_group_name", "ledger_tally_report",
    "ledger_debit_credit", "ledger_trial_balance", "status"]

  /** The index of the Main Group Name input, the only one without a `|| ''` fallback. */
  const MainGroupNameField: nat := 5

  /** The text input `k` shows. Every input shows `value || ''`, except Main Group
      Name, which shows nothing only for `undefined`/`null` and otherwise the
      value's string form (so a falsy `0` shows as "0" there). */
  function Shown(record: Option<Item>, k: nat): (text: string)
    requires k < |FieldKeys|
    ensures record.None? ==> text == ""
    ensures record.Some? && k != MainGroupNameField ==>
      (text == "" <==> !Truthy(Field(record.value, FieldKeys[k])) || Field(record.value, FieldKeys[k]) == Str(""))
    ensures record.Some? && k == MainGroupNameField ==>
      (text == "" <==> Field(record.value, FieldKeys[k]) in {Undefined, Null, Str("")})
    ensures record.Some? && k == MainGroupNameField && Field(record.value, FieldKeys[k]) == Num(0) ==> text == "0"
    ensures record.Some? && k != MainGroupNameField && Truthy(Field(record.value, FieldKeys[k])) ==>
      text == ToString(Field(record.value, FieldKeys[k]))
    ensures record.Some? && k == MainGroupNameField && !(Field(record.value, FieldKeys[k]) in {Undefined, Null}) ==>
      text == ToString(Field(record.value, FieldKeys[k]))
  {
    if record.None? then ""
    else
      var v := Field(record.value, FieldKeys[k]);
      if k == MainGroupNameField then (if v.Undefined? || v.Null? then "" else ToString(v))
      else if Truthy(v) then ToString(v) else ""
  }

  /** The focused input, the caret in it, and the text of every input. */
  datatype Form = Form(values: seq<string>, focus: nat, caret: nat)

  /** The focus names an input and the caret lies within its text. */
  predicate Valid(f: Form) {
    f.focus < |f.values| && f.caret <= |f.values[f.focus]|
  }

  /** The form as mounted, before the record has arrived: ten empty inputs,
      the first focused with the caret at 0. */
  function MountedForm(): (f: Form)
    ensures Valid(f) && f.focus == 0 && f.caret == 0 && |f.values| == |FieldKeys|
    ensures forall k :: 0 <= k < |FieldKeys| ==> f.values[k] == "" == Shown(None, k)
  {
    Form(seq(|FieldKeys|, k => ""), 0, 0)
  }

  /** React writing the record's texts into the inputs. A different text
      written into the focused input moves its caret to the end of the new
      text, as the HTML value setter does; an unchanged text keeps the caret. */
  function ShowRecord(f: Form, record: Option<Item>): (r: Form)
    requires Valid(f) && |f.values| == |FieldKeys|
    ensures Valid(r) && r.focus == f.focus && |r.values| == |FieldKeys|
    ensures forall k :: 0 <= k < |FieldKeys| ==> r.values[k] == Shown(record, k)
    ensures r.values[f.focus] == f.values[f.focus] ==> r.caret == f.caret
    ensures r.values[f.focus] != f.values[f.focus] ==> r.caret == |r.values[f.focus]|
  {
    var values := seq(|FieldKeys|, k requires 0 <= k < |FieldKeys| => Shown(record, k));
    Form(values, f.focus, if values[f.focus] == f.values[f.focus] then f.caret else |values[f.focus]|)
  }

  /** The page once the load has finished: the record's texts, the first input
      focused, and its caret at the end of its text (at 0 when it is empty). */
  function OpenForm(record: Option<Item>): (f: Form)
    ensures Valid(f) && f.focus == 0 && |f.values| == |FieldKeys|
    ensures f.caret == |f.values[0]|
    ensures forall k :: 0 <= k < |FieldKeys| ==> f.values[k] == Shown(record, k)
  {
    ShowRecord(MountedForm(), record)
  }

  /** `value.slice(0, caret - 1) + value.slice(caret)`: the character before the caret removed. */
  function DeleteBefore(value: string, caret: nat): (r: string)
    requires 0 < caret <= |value|
    ensures |r| == |value| - 1
    ensures r[..caret - 1] == value[..caret - 1]
    ensures r[caret - 1..] == value[caret..]
  {
    value[..caret - 1] + value[caret..]
  }

  /** Putting the removed character back at the new caret restores the text. */
  lemma DeleteBeforeUndone(value: string, caret: nat)
    requires 0 < caret <= |value|
    ensures var r := DeleteBefore(value, caret);
      r[..caret - 1] + [value[caret - 1]] + r[caret - 1..] == value
  {
    var r := DeleteBefore(value, caret);
    assert value == value[..caret - 1] + [value[caret - 1]] + value[caret..];
  }

  /** `handleKeyDownLedger` on the focused input. Enter moves to the next input
      when there is one; Backspace at the start of an input moves to the
      previous one, and elsewhere deletes the character before the caret;
      Escape leaves the page. */
  function KeyDownLedger(f: Form, key: Key): (r: (Form, Navigation))
    requires Valid(f)
    ensures Valid(r.0) && |r.0.values| == |f.values|
    ensures r.1 == (if key == Escape then Back else Stay)
    ensures key == Enter ==>
      r.0 == (if f.focus + 1 < |f.values| then f.(focus := f.focus + 1, caret := 0) else f)
    ensures key == Backspace && f.caret == 0 ==>
      r.0 == (if f.focus > 0 then f.(focus := f.focus - 1) else f)
    ensures key == Backspace && f.caret > 0 ==>
      && r.0.focus == f.focus && r.0.caret == f.caret - 1
      && |r.0.values[f.focus]| == |f.values[f.focus]| - 1
      && r.0.values == f.values[f.focus := DeleteBefore(f.values[f.focus], f.caret)]
      && (forall k :: 0 <= k < |f.values| && k != f.focus ==> r.0.values[k] == f.values[k])
    ensures key != Enter && key != Backspace ==> r.0 == f
  {
    match key
    case Enter =>
      var next := f.focus + 1;
      if next < |f.values| then (f.(focus := next, caret := 0), Stay) else (f, Stay)
    case Backspace =>
      if f.caret == 0 && f.focus > 0 then (f.(focus := f.focus - 1, caret := 0), Stay)
      else if f.caret > 0 then
        (f.(values := f.values[f.focus := DeleteBefore(f.values[f.focus], f.caret)], caret := f.caret - 1), Stay)
      else (f, Stay)
    case Escape => (f, Back)
    case _ => (f, Stay)
  }

  /** The form after a sequence of key presses (Escape leaves it as it is). */
  function Run(f: Form, keys: seq<Key>): (r: Form)
    requires Valid(f)
    ensures Valid(r) && |r.values| == |f.values|
    decreases |keys|
  {
    if keys == [] then f else Run(KeyDownLedger(f, keys[0]).0, keys[1..])
  }

  function Repeat(key: Key, n: nat): (keys: seq<Key>)
    ensures |keys| == n && forall i :: 0 <= i < n ==> keys[i] == key
  {
    seq(n, i => key)
  }

  /** On the loaded page the first Backspace deletes the last character of the
      ledger code, since the caret sits at the end of it. */
  lemma FirstBackspaceDeletesLast(record: Option<Item>)
    requires Shown(record, 0) != ""
    ensures var code := Shown(record, 0);
      && KeyDownLedger(OpenForm(record), Backspace).0.values[0] == code[..|code| - 1]
      && KeyDownLedger(OpenForm(record), Backspace).0.focus == 0
  {
    var f := OpenForm(record);
    var code := Shown(record, 0);
    assert f.values[0] == code && f.caret == |code|;
    var r := KeyDownLedger(f, Backspace).0;
    assert r.values[0][..|code| - 1] == code[..|code| - 1];
  }

  /** Pressing Enter n times walks down n inputs and stops at the last one. */
  lemma {:induction false} EnterWalksDown(f: Form, n: nat)
    requires Valid(f)
    ensures Run(f, Repeat(Enter, n)).focus ==
      (if f.focus + n < |f.values| then f.focus + n else |f.values| - 1)
    ensures n > 0 && f.focus + 1 < |f.values| ==> Run(f, Repeat(Enter, n)).caret == 0
    ensures Run(f, Repeat(Enter, n)).values == f.values
    decreases n
  {
    if n > 0 {
      var g := KeyDownLedger(f, Enter).0;
      assert Repeat(Enter, n)[1..] == Repeat(Enter, n - 1);
      EnterWalksDown(g, n - 1);
      if f.focus + 1 >= |f.values| {
        EnterStaysAtLast(f, n - 1);
      } else if g.focus + 1 == |g.values| {
        EnterStaysAtLast(g, n - 1);
      }
    }
  }

  lemma {:induction false} EnterStaysAtLast(f: Form, n: nat)
    requires Valid(f) && f.focus + 1 == |f.values|
    ensures Run(f, Repeat(Enter, n)) == f
    decreases n
  {
    if n > 0 {
      assert Repeat(Enter, n)[1..] == Repeat(Enter, n - 1);
      EnterStaysAtLast(f, n - 1);
    }
  }

  /** Pressing Backspace n times with the caret at the start of the input walks
      up n inputs, stops at the first one, and never edits a text. */
  lemma {:induction false} BackspaceWalksUp(f: Form, n: nat)
    requires Valid(f) && f.caret == 0
    ensures Run(f, Repeat(Backspace, n)).focus == (if f.focus >= n then f.focus - n else 0)
    ensures Run(f, Repeat(Backspace, n)).caret == 0
    ensures Run(f, Repeat(Backspace, n)).values == f.values
    decreases n
  {
    if n > 0 {
      var g := KeyDownLedger(f, Backspace).0;
      assert Repeat(Backspace, n)[1..] == Repeat(Backspace, n - 1);
      BackspaceWalksUp(g, n - 1);
    }
  }
}

=== FILE: import_excel.dfy ===
/** The Excel import page (`ImportExcelPage`): choosing a target table and an
    Excel file, the checks made before an upload, the status line composed from
    the server's answer, its colour class, and each table's accent colour.
    The upload itself is a parameter: the model receives its outcome. */
module ImportExcel {
  import opened Options
  import opened JsValues
  import opened Text

  const XlsxMime: string := "application/vnd.openxmlformats-officedocument.spreadsheetml.sheet"
  const XlsMime: string := "application/vnd.ms-excel"

  const SuccessMark: char := '\U{2705}'   // the check-mark emoji
  const ErrorMark: char := '\U{274C}'     // the cross-mark emoji

  const InvalidFileMessage: string := [ErrorMark] + " Please select a valid Excel file (.xlsx, .xls)"
  const NoTableMessage: string := [ErrorMark] + " Please select a table to import"
  const NoFileMessage: string := [ErrorMark] + " Please select a file to import"
  const ImportingMessage: string := "\U{1F504} Importing... Please wait..."
  const NetworkErrorMessage: string := [ErrorMark] + " Network error: Could not connect to server"

  const ImportBaseUrl: string := "http://localhost:5000/import/"

  datatype Table = Table(value: string, title: string, color: string)

  /** The tables offered for import, in display order. */
  const Tables: seq<Table> := [
    Table("main-groups", "Main Groups", "blue"),
    Table("sub-groups", "Sub Groups", "purple"),
    Table("ledgers", "Ledgers", "green"),
    Table("divisions", "Divisions", "indigo")]

  /** The selected file; only its MIME type is inspected. */
  datatype File = File(name: string, mimeType: string)

  /** `selectedTable`, `file`, `importStatus` and `isLoading`. */
  datatype ImportForm = ImportForm(table: string, file: Option<File>, status: string, loading: bool)

  const Initial: ImportForm := ImportForm("", None, "", false)

  predicate IsExcel(mimeType: string) {
    mimeType == XlsxMime || mimeType == XlsMime
  }

  /** `handleFileSelect`: an Excel file replaces the selection and clears the
      status; any other file leaves the selection alone and reports an error;
      cancelling the dialog changes nothing. */
  function SelectFile(f: ImportForm, picked: Option<File>): (r: ImportForm)
    ensures r.table == f.table && r.loading == f.loading
    ensures r.file != f.file ==> picked.Some? && r.file == picked && IsExcel(picked.value.mimeType)
    ensures picked.Some? && IsExcel(picked.value.mimeType) ==> r.file == picked && r.status == ""
    ensures picked.Some? && !IsExcel(picked.value.mimeType) ==> r.file == f.file && r.status == InvalidFileMessage
    ensures picked.None? ==> r == f
  {
    match picked
    case None => f
    case Some(file) =>
      if file.mimeType == XlsxMime || file.mimeType == XlsMime then f.(file := picked, status := "")
      else f.(status := InvalidFileMessage)
  }

  /** A table button: selects the table and clears the status and the file. */
  function SelectTable(f: ImportForm, value: string): (r: ImportForm)
    ensures r.table == value && r.status == "" && r.file.None? && r.loading == f.loading
  {
    f.(table := value, status := "", file := None)
  }

  /** The import button's enable rule. */
  predicate ButtonEnabled(f: ImportForm) {
    !(f.loading || f.table == "" || f.file.None?)
  }

  /** What `handleImport` does before the upload: refuse, or send. */
  datatype Start = Refused(form: ImportForm) | Sending(form: ImportForm, url: string)

  /** `handleImport`'s checks, table first and file second, then the start of
      the upload to the selected table's URL. */
  function StartImport(f: ImportForm): (r: Start)
    ensures f.table == "" ==> r == Refused(f.(status := NoTableMessage))
    ensures f.table != "" && f.file.None? ==> r == Refused(f.(status := NoFileMessage))
    ensures r.Sending? <==> f.table != "" && f.file.Some?
    ensures r.Sending? ==>
      r.form == f.(loading := true, status := ImportingMessage) && r.url == ImportBaseUrl + f.table
  {
    if f.table == "" then Refused(f.(status := NoTableMessage))
    else if f.file.None? then Refused(f.(status := NoFileMessage))
    else Sending(f.(loading := true, status := ImportingMessage), ImportBaseUrl + f.table)
  }

  /** The parsed JSON body of the server's answer. `errors` is `None` when the
      field is missing or falsy. */
  datatype ImportResult = ImportResult(
    message: JsValue, successCount: JsValue, errorCount: JsValue,
    errors: Option<seq<JsValue>>, error: JsValue)

  /** The upload's outcome: an answer with its `ok` flag, or a failure to reach
      the server (or to read its answer as JSON). */
  datatype ImportResponse = Answered(ok: bool, result: ImportResult) | Unreachable

  /** The status line for an accepted upload. */
  function SuccessStatus(result: ImportResult): (status: string)
    ensures [SuccessMark, ' '] <= status
  {
    var summary := [SuccessMark] + " " + ToString(result.message)
      + " - Success: " + ToString(result.successCount)
      + ", Errors: " + ToString(result.errorCount);
    if result.errors.Some? && |result.errors.value| > 0 then
      summary + " - First error: " + ToString(result.errors.value[0])
    else summary
  }

  /** The summary line is followed by the first reported error exactly when the
      server reported some. */
  lemma SuccessStatusFirstError(result: ImportResult)
    ensures var summary := [SuccessMark] + " " + ToString(result.message)
        + " - Success: " + ToString(result.successCount) + ", Errors: " + ToString(result.errorCount);
      && summary <= SuccessStatus(result)
      && (result.errors.Some? && |result.errors.value| > 0 <==> |SuccessStatus(result)| > |summary|)
      && (result.errors.Some? && |result.errors.value| > 0 ==>
            SuccessStatus(result)[|summary|..] == " - First error: " + ToString(result.errors.value[0]))
  {
  }

  /** The end of `handleImport`: an accepted upload shows the summary and clears
      the file; a refused one or an unreachable server shows an error and keeps it. */
  function FinishImport(f: ImportForm, response: ImportResponse): (r: ImportForm)
    ensures !r.loading && r.table == f.table
    ensures response.Answered? && response.ok ==>
      r.status == SuccessStatus(response.result) && r.file.None?
    ensures response.Answered? && !response.ok ==>
      r.status == [ErrorMark] + " Error: " + ToString(response.result.error) && r.file == f.file
    ensures response.Unreachable? ==> r.status == NetworkErrorMessage && r.file == f.file
  {
    match response
    case Unreachable => f.(status := NetworkErrorMessage, loading := false)
    case Answered(ok, result) =>
      if ok then f.(status := SuccessStatus(result), file := None, loading := false)
      else f.(status := [ErrorMark] + " Error: " + ToString(result.error), loading := false)
  }

  /** The button is enabled exactly when the form is idle and `handleImport`
      would send; a refused import sends nothing. */
  lemma ButtonMatchesChecks(f: ImportForm)
    ensures ButtonEnabled(f) <==> !f.loading && StartImport(f).Sending?
    ensures f.table == "" ==> StartImport(f).Refused? && StartImport(f).form.status == NoTableMessage
  {
  }

  /** An accepted upload clears the file, so the button is disabled. */
  lemma NoResubmitAfterSuccess(f: ImportForm, result: ImportResult)
    requires StartImport(f).Sending?
    ensures FinishImport(StartImport(f).form, Answered(true, result)).file.None?
    ensures !ButtonEnabled(FinishImport(StartImport(f).form, Answered(true, result)))
  {
  }

  /** Without a file the button stays disabled until an Excel file is chosen:
      choosing a table, trying to import and finishing an import never bring
      a file back, and only an Excel file does. */
  lemma DisabledUntilFileChosen(f: ImportForm, picked: Option<File>, value: string, response: ImportResponse)
    requires f.file.None?
    ensures !ButtonEnabled(f)
    ensures SelectTable(f, value).file.None?
    ensures StartImport(f).Refused? && StartImport(f).form.file.None?
    ensures FinishImport(f, response).file.None?
    ensures ButtonEnabled(SelectFile(f, picked)) ==>
      picked.Some? && IsExcel(picked.value.mimeType) && f.table != "" && !f.loading
  {
  }

  /** The page opens with nothing chosen: no file, and a disabled button. */
  lemma InitialIsIdle()
    ensures HoldsExcel(Initial) && !ButtonEnabled(Initial)
    ensures StartImport(Initial) == Refused(Initial.(status := NoTableMessage))
  {
  }

  /** The form only ever holds an Excel file. */
  ghost predicate HoldsExcel(f: ImportForm) {
    f.file.Some? ==> IsExcel(f.file.value.mimeType)
  }

  lemma HoldsExcelPreserved(f: ImportForm, picked: Option<File>, value: string, response: ImportResponse)
    requires HoldsExcel(f)
    ensures HoldsExcel(SelectFile(f, picked))
    ensures HoldsExcel(SelectTable(f, value))
    ensures HoldsExcel(StartImport(f).form)
    ensures HoldsExcel(FinishImport(f, response))
  {
  }

  // ---------------------------------------------------------------------------
  // Status colour and table colour

  /** The status panel's colour class. */
  datatype Severity = Green | Red | Blue

  /** The status panel is shown only for a non-empty status; it is green when the
      status includes the check mark, otherwise red when it includes the cross
      mark, otherwise blue. */
  function StatusSeverity(status: string): (r: Option<Severity>)
    ensures r.None? <==> status == ""
    ensures r == Some(Green) <==> status != "" && SuccessMark in status
    ensures r == Some(Red) <==> status != "" && SuccessMark !in status && ErrorMark in status
    ensures r == Some(Blue) <==> status != "" && SuccessMark !in status && ErrorMark !in status
  {
    IncludesOneChar(status, SuccessMark);
    IncludesOneChar(status, ErrorMark);
    if status == "" then None
    else if Contains(status, [SuccessMark]) then Some(Green)
    else if Contains(status, [ErrorMark]) then Some(Red)
    else Some(Blue)
  }

  /** `s.includes(c)` for a one-character string is membership of the character. */
  lemma IncludesOneChar(s: string, c: char)
    ensures Contains(s, [c]) <==> c in s
  {
    if c in s {
      var i :| 0 <= i < |s| && s[i] == c;
      assert [c] <= s[i..];
    }
    if Contains(s, [c]) {
      var i :| 0 <= i <= |s| && [c] <= s[i..];
      assert s[i..][0] == c;
    }
  }

  /** Every refusal and every error the page writes itself shows red, and the
      in-progress line blue. */
  lemma StatusColours()
    ensures StatusSeverity(InvalidFileMessage) == Some(Red)
    ensures StatusSeverity(NoTableMessage) == Some(Red)
    ensures StatusSeverity(NoFileMessage) == Some(Red)
    ensures StatusSeverity(NetworkErrorMessage) == Some(Red)
    ensures StatusSeverity(ImportingMessage) == Some(Blue)
  {
    InvalidFileIsRed();
    NoTableIsRed();
    NoFileIsRed();
    NetworkErrorIsRed();
    ImportingIsBlue();
  }

  lemma InvalidFileIsRed()
    ensures StatusSeverity(InvalidFileMessage) == Some(Red)
  {
    var head, rest := " Please select a valid Excel file", " (.xlsx, .xls)";
    assert SuccessMark !in head;
    assert SuccessMark !in rest;
    assert head + rest == " Please select a valid Excel file (.xlsx, .xls)";
    ErrorLine(head + rest);
  }

  lemma NoTableIsRed()
    ensures StatusSeverity(NoTableMessage) == Some(Red)
  {
    ErrorLine(" Please select a table to import");
  }

  lemma NoFileIsRed()
    ensures StatusSeverity(NoFileMessage) == Some(Red)
  {
    ErrorLine(" Please select a file to import");
  }

  lemma NetworkErrorIsRed()
    ensures StatusSeverity(NetworkErrorMessage) == Some(Red)
  {
    ErrorLine(" Network error: Could not connect to server");
  }

  lemma ImportingIsBlue()
    ensures StatusSeverity(ImportingMessage) == Some(Blue)
  {
    var spinning := ImportingMessage;
    assert SuccessMark !in spinning && ErrorMark !in spinning;
  }

  /** An accepted upload always shows green, whatever the server's texts. */
  lemma AcceptedIsGreen(result: ImportResult)
    ensures StatusSeverity(SuccessStatus(result)) == Some(Green)
  {
    assert SuccessStatus(result)[0] == SuccessMark;
  }

  /** A refused upload shows red, unless the server's error text itself
      carries the check mark, which takes priority. */
  lemma RefusedColour(result: ImportResult)
    ensures StatusSeverity([ErrorMark] + " Error: " + ToString(result.error)) ==
      (if SuccessMark in ToString(result.error) then Some(Green) else Some(Red))
  {
    var text := ToString(result.error);
    var refused := [ErrorMark] + " Error: " + text;
    assert refused == [ErrorMark] + (" Error: " + text);
    if SuccessMark in text {
      var i :| 0 <= i < |text| && text[i] == SuccessMark;
      assert refused[|refused| - |text| + i] == SuccessMark;
    } else {
      ErrorLine(" Error: " + text);
    }
  }

  /** A line that starts with the cross mark and carries no check mark is red. */
  lemma ErrorLine(tail: string)
    requires SuccessMark !in tail
    ensures StatusSeverity([ErrorMark] + tail) == Some(Red)
  {
    var line := [ErrorMark] + tail;
    assert line[0] == ErrorMark;
    assert forall i :: 1 <= i < |line| ==> line[i] == tail[i - 1];
  }

  /** `tables.find(t => t.value === value)`: the first table with that value. */
  function FindTable(tables: seq<Table>, value: string): (r: Option<Table>)
    ensures r.Some? ==> r.value in tables && r.value.value == value
    ensures r.None? <==> forall k :: 0 <= k < |tables| ==> tables[k].value != value
    ensures forall k :: (0 <= k < |tables| && tables[k].value == value
      && (forall j :: 0 <= j < k ==> tables[j].value != value)) ==> r == Some(tables[k])
    decreases |tables|
  {
    if tables == [] then None
    else if tables[0].value == value then Some(tables[0])
    else
      var r := FindTable(tables[1..], value);
      assert forall k :: 1 <= k < |tables| ==> tables[k] == tables[1..][k - 1];
      r
  }

  /** `getTableColor`: the colour of the table with that value, 'gray' when none has it. */
  function TableColor(value: string): (color: string)
    ensures (forall k :: 0 <= k < |Tables| ==> Tables[k].value != value) ==> color == "gray"
    ensures forall k :: 0 <= k < |Tables| && Tables[k].value == value ==> color == Tables[k].color
  {
    match FindTable(Tables, value)
    case Some(t) => t.color
    case None => "gray"
  }

  /** Only the four known tables get a colour other than gray. */
  lemma TableColors()
    ensures TableColor("main-groups") == "blue"
    ensures TableColor("sub-groups") == "purple"
    ensures TableColor("ledgers") == "green"
    ensures TableColor("divisions") == "indigo"
    ensures TableColor("") == "gray"
  {
    assert Tables[0].value == "main-groups";
  }
}

=== FILE: js_values.dfy ===
/** The slice of JavaScript value semantics the pages rely on: truthiness
    (`value && …`, `if (!str)`) and string conversion (`value.toString()` and
    template literals). Numbers are modelled as integers. */
module JsValues {

  /** A JavaScript value as it can appear in a field of a fetched record. */
  datatype JsValue =
    | Undefined
    | Null
    | Bool(b: bool)
    | Num(n: int)
    | Str(s: string)
    | Obj   // any object or array; its string form is not inspected by the pages

  /** JavaScript truthiness: `undefined`, `null`, `false`, `0` and `""` are falsy. */
  predicate Truthy(v: JsValue) {
    match v
    case Undefined => false
    case Null => false
    case Bool(b) => b
    case Num(n) => n != 0
    case Str(s) => s != ""
    case Obj => true
  }

  /** `String(v)`, which is also what a template literal `${v}` produces. */
  function ToString(v: JsValue): (r: string)
    ensures v.Str? ==> r == v.s
    ensures v.Num? ==> r != "" && (r[0] == '-' <==> v.n < 0)
    ensures v.Num? && v.n >= 0 ==> (forall i :: 0 <= i < |r| ==> IsDigit(r[i])) && ParseDigits(r) == v.n
    ensures v.Num? && v.n < 0 ==> (forall i :: 1 <= i < |r| ==> IsDigit(r[i])) && ParseDigits(r[1..]) == -v.n
    ensures v.Num? && v.n >= 0 && |r| > 1 ==> r[0] != '0'
    ensures v.Num? && v.n < 0 ==> |r| > 1 && r[1] != '0'
  {
    match v
    case Undefined => "undefined"
    case Null => "null"
    case Bool(b) => if b then "true" else "false"
    case Num(n) => IntToStringReadsBack(n); IntToString(n)
    case Str(s) => s
    case Obj => "[object Object]"
  }

  predicate IsDigit(c: char) {
    '0' <= c <= '9'
  }

  function DigitChar(d: nat): (c: char)
    requires d < 10
    ensures IsDigit(c)
  {
    "0123456789"[d]
  }

  function DigitValue(c: char): (d: nat)
    requires IsDigit(c)
    ensures d < 10
  {
    (c as int) - ('0' as int)
  }

  /** Decimal notation of an integer, with a leading '-' for negatives. */
  function IntToString(n: int): (r: string)
    ensures r != ""
    ensures r[0] == '-' <==> n < 0
    ensures n >= 0 && |r| > 1 ==> r[0] != '0'
    ensures n < 0 ==> |r| > 1 && r[1] != '0'
  {
    if n < 0 then "-" + NatToString(-n) else NatToString(n)
  }

  /** The digits after any '-' read back as the number's magnitude. */
  lemma IntToStringReadsBack(n: int)
    ensures n >= 0 ==>
      (forall i :: 0 <= i < |IntToString(n)| ==> IsDigit(IntToString(n)[i])) && ParseDigits(IntToString(n)) == n
    ensures n < 0 ==>
      (forall i :: 1 <= i < |IntToString(n)| ==> IsDigit(IntToString(n)[i])) && ParseDigits(IntToString(n)[1..]) == -n
  {
    if n >= 0 {
      ParseNatToString(n);
    } else {
      ParseNatToString(-n);
      assert IntToString(n)[1..] == NatToString(-n);
    }
  }

  /** Decimal digits of a natural number, most significant first, no leading zero. */
  function NatToString(n: nat): (r: string)
    ensures r != ""
    ensures forall i :: 0 <= i < |r| ==> IsDigit(r[i])
    ensures |r| > 1 ==> r[0] != '0'
    decreases n
  {
    if n < 10 then [DigitChar(n)] else NatToString(n / 10) + [DigitChar(n % 10)]
  }

  /** Reads a string of decimal digits back as a number (the partner of NatToString). */
  function ParseDigits(s: string): nat
    requires forall i :: 0 <= i < |s| ==> IsDigit(s[i])
  {
    if s == [] then 0 else 10 * ParseDigits(s[..|s| - 1]) + DigitValue(s[|s| - 1])
  }

  /** Number-to-string conversion loses nothing: the digits read back as the number. */
  lemma {:induction false} ParseNatToString(n: nat)
    ensures ParseDigits(NatToString(n)) == n
    decreases n
  {
    var s := NatToString(n);
    if n < 10 {
      assert s[..|s| - 1] == [];
      assert DigitValue(DigitChar(n)) == n;
    } else {
      ParseNatToString(n / 10);
      assert s[..|s| - 1] == NatToString(n / 10);
      assert DigitValue(DigitChar(n % 10)) == n % 10;
    }
  }
}

=== FILE: master_list.dfy ===
/** The list logic shared, line for line, by the master list viewer and the
    ledger consolidation page: the search filter, the keyboard selection cursor
    and the page-title formatter. */
module MasterList {
  import opened Options
  import opened JsValues
  import opened Text

  /** A fetched record: field name to value. A missing field reads as `undefined`. */
  type Item = map<string, JsValue>

  function Field(item: Item, name: string): JsValue {
    if name in item then item[name] else Undefined
  }

  /** One entry of a page's module configuration table. `fields` lists the
      values of the configuration's `fields` object in declaration order. */
  datatype ModuleConfig = ModuleConfig(title: string, endpoint: string, itemName: string, fields: seq<string>)

  /** Where a page sends the browser after an event. */
  datatype Navigation = Stay | Go(path: string) | Back

  // ---------------------------------------------------------------------------
  // Search filter

  /** A field value matches when it is truthy and its lower-cased string form
      includes the lower-cased query. */
  predicate FieldMatches(v: JsValue, query: string) {
    Truthy(v) && Contains(Lower(ToString(v)), Lower(query))
  }

  /** Some configured field of the item matches the query. */
  predicate ItemMatches(fields: seq<string>, item: Item, query: string) {
    exists k :: 0 <= k < |fields| && FieldMatches(Field(item, fields[k]), query)
  }

  /** `a` is `b` with some elements dropped and the rest in their original order. */
  ghost predicate IsSubsequence(a: seq<Item>, b: seq<Item>)
    decreases |b|
  {
    if a == [] then true
    else if b == [] then false
    else (a[0] == b[0] && IsSubsequence(a[1..], b[1..])) || IsSubsequence(a, b[1..])
  }

  lemma {:induction false} SubsequenceReflexive(a: seq<Item>)
    ensures IsSubsequence(a, a)
    decreases |a|
  {
    if a != [] {
      SubsequenceReflexive(a[1..]);
    }
  }

  lemma SubsequenceOfEmpty(a: seq<Item>)
    requires IsSubsequence(a, [])
    ensures a == []
  {
  }

  /** The `.some(...)` scan over the configured fields, first to last. */
  function AnyFieldMatches(fields: seq<string>, item: Item, query: string): (b: bool)
    ensures b <==> ItemMatches(fields, item, query)
    decreases |fields|
  {
    if fields == [] then false
    else if FieldMatches(Field(item, fields[0]), query) then true
    else
      var b := AnyFieldMatches(fields[1..], item, query);
      assert ItemMatches(fields, item, query) ==> ItemMatches(fields[1..], item, query) by {
        if ItemMatches(fields, item, query) {
          var k :| 0 <= k < |fields| && FieldMatches(Field(item, fields[k]), query);
          assert k != 0;
          assert fields[1..][k - 1] == fields[k];
        }
      }
      assert ItemMatches(fields[1..], item, query) ==> ItemMatches(fields, item, query) by {
        if ItemMatches(fields[1..], item, query) {
          var k :| 0 <= k < |fields| - 1 && FieldMatches(Field(item, fields[1..][k]), query);
          assert fields[k + 1] == fields[1..][k];
        }
      }
      b
  }

  /** The `Array.filter` pass: keeps exactly the matching items, in order. */
  function KeepMatching(fields: seq<string>, items: seq<Item>, query: string): (r: seq<Item>)
    ensures IsSubsequence(r, items)
    ensures forall x :: x in r ==> x in items && ItemMatches(fields, x, query)
    ensures forall x :: x in items && ItemMatches(fields, x, query) ==> x in r
    ensures forall x :: multiset(r)[x] == if ItemMatches(fields, x, query) then multiset(items)[x] else 0
    decreases |items|
  {
    if items == [] then []
    else
      var rest := KeepMatching(fields, items[1..], query);
      assert forall x :: x in items ==> x == items[0] || x in items[1..];
      assert items == [items[0]] + items[1..];
      assert multiset(items) == multiset{items[0]} + multiset(items[1..]);
      if AnyFieldMatches(fields, items[0], query) then
        assert ([items[0]] + rest)[1..] == rest;
        [items[0]] + rest
      else
        rest
  }

  /** `filterData(dataToFilter, searchValue)`: nothing without a configuration or
      data; everything for a query that is blank after trimming; otherwise the
      order-preserving sub-list of items with a matching field. Matching uses the
      query as typed, not trimmed. */
  function FilterData(config: Option<ModuleConfig>, data: Option<seq<Item>>, query: string): (r: seq<Item>)
    ensures config.None? || data.None? ==> r == []
    ensures config.Some? && data.Some? && Blank(query) ==> r == data.value
    ensures config.Some? && data.Some? && !Blank(query) ==>
      && IsSubsequence(r, data.value)
      && (forall x :: x in r ==> x in data.value && ItemMatches(config.value.fields, x, query))
      && (forall x :: x in data.value && ItemMatches(config.value.fields, x, query) ==> x in r)
      && (forall x :: multiset(r)[x] ==
            if ItemMatches(config.value.fields, x, query) then multiset(data.value)[x] else 0)
  {
    TrimEmptyIffBlank(query);
    if config.None? || data.None? then []
    else if Trim(query) == "" then data.value
    else KeepMatching(config.value.fields, data.value, query)
  }

  /** Whatever the query, the filter's result is a sub-list of the data. */
  lemma FilterIsSubsequence(config: ModuleConfig, data: seq<Item>, query: string)
    ensures IsSubsequence(FilterData(Some(config), Some(data), query), data)
  {
    if Blank(query) {
      SubsequenceReflexive(data);
    }
  }

  lemma {:induction false} KeepMatchingIdempotent(fields: seq<string>, items: seq<Item>, query: string)
    ensures KeepMatching(fields, KeepMatching(fields, items, query), query) == KeepMatching(fields, items, query)
    decreases |items|
  {
    if items != [] {
      KeepMatchingIdempotent(fields, items[1..], query);
      var rest := KeepMatching(fields, items[1..], query);
      if AnyFieldMatches(fields, items[0], query) {
        assert ([items[0]] + rest)[1..] == rest;
      }
    }
  }

  /** Filtering an already filtered list with the same query changes nothing. */
  lemma FilterIdempotent(config: ModuleConfig, data: seq<Item>, query: string)
    ensures FilterData(Some(config), Some(FilterData(Some(config), Some(data), query)), query)
         == FilterData(Some(config), Some(data), query)
  {
    TrimEmptyIffBlank(query);
    if !Blank(query) {
      KeepMatchingIdempotent(config.fields, data, query);
    }
  }

  /** An item that matches a longer query also matches every prefix of it. */
  lemma MatchNarrowing(fields: seq<string>, item: Item, query: string, more: string)
    requires ItemMatches(fields, item, query + more)
    ensures ItemMatches(fields, item, query)
  {
    var k :| 0 <= k < |fields| && FieldMatches(Field(item, fields[k]), query + more);
    var text := Lower(ToString(Field(item, fields[k])));
    LowerAppend(query, more);
    ContainsPrefixOfNeedle(text, Lower(query), Lower(more));
  }

  lemma SubsequenceCons(x: Item, a: seq<Item>, b: seq<Item>)
    requires IsSubsequence(a, b)
    ensures IsSubsequence(a, [x] + b)
  {
    assert ([x] + b)[1..] == b;
  }

  lemma {:induction false} KeepMatchingNarrowing(fields: seq<string>, items: seq<Item>, query: string, more: string)
    ensures IsSubsequence(KeepMatching(fields, items, query + more), KeepMatching(fields, items, query))
    decreases |items|
  {
    if items != [] {
      KeepMatchingNarrowing(fields, items[1..], query, more);
      var longer := KeepMatching(fields, items[1..], query + more);
      var shorter := KeepMatching(fields, items[1..], query);
      if AnyFieldMatches(fields, items[0], query + more) {
        MatchNarrowing(fields, items[0], query, more);
        assert ([items[0]] + longer)[1..] == longer;
        assert ([items[0]] + shorter)[1..] == shorter;
      } else if AnyFieldMatches(fields, items[0], query) {
        SubsequenceCons(items[0], longer, shorter);
      }
    }
  }

  /** Typing more characters into the search box only narrows the list. */
  lemma FilterNarrowing(config: ModuleConfig, data: seq<Item>, query: string, more: string)
    ensures IsSubsequence(FilterData(Some(config), Some(data), query + more),
                          FilterData(Some(config), Some(data), query))
  {
    if Blank(query) {
      FilterIsSubsequence(config, data, query + more);
    } else {
      NonBlankAppend(query, more);
      TrimEmptyIffBlank(query);
      TrimEmptyIffBlank(query + more);
      KeepMatchingNarrowing(config.fields, data, query, more);
    }
  }

  /** The text `includes` looks for holds no white space. */
  predicate NoWhitespace(text: string) {
    forall i :: 0 <= i < |text| ==> !IsWhitespace(text[i])
  }

  /** The query is matched as typed: `trim` only decides whether the search is
      blank, so a non-blank term with leading white space finds no item whose
      fields' string forms hold no white space (" abc" does not find "abc"). */
  lemma UntrimmedQueryMatters(config: ModuleConfig, data: seq<Item>, query: string, item: Item)
    requires !Blank(query) && IsWhitespace(query[0])
    requires forall k :: 0 <= k < |config.fields| ==> NoWhitespace(ToString(Field(item, config.fields[k])))
    ensures !ItemMatches(config.fields, item, query)
    ensures item !in FilterData(Some(config), Some(data), query)
  {
    forall k | 0 <= k < |config.fields|
      ensures !FieldMatches(Field(item, config.fields[k]), query)
    {
      LeadingWhitespaceNotFound(ToString(Field(item, config.fields[k])), query);
    }
  }

  /** A needle that starts with white space occurs nowhere in a lower-cased
      text without white space. */
  lemma LeadingWhitespaceNotFound(text: string, query: string)
    requires NoWhitespace(text) && query != "" && IsWhitespace(query[0])
    ensures !Contains(Lower(text), Lower(query))
  {
    var low := Lower(text);
    forall i | 0 <= i <= |low|
      ensures !(Lower(query) <= low[i..])
    {
      if i < |low| {
        assert low[i] != Lower(query)[0];
      }
    }
  }

  // ---------------------------------------------------------------------------
  // Selection cursor

  /** Keys the pages react to. */
  datatype Key = ArrowUp | ArrowDown | Enter | Escape | Backspace | OtherKey

  /** `Math.max(0, prev - 1)`. */
  function CursorUp(selected: int): (r: int)
    ensures r >= 0 && r >= selected - 1
    ensures r == 0 || r == selected - 1
  {
    if selected - 1 > 0 then selected - 1 else 0
  }

  /** `Math.min(filteredData.length - 1, prev + 1)`. */
  function CursorDown(selected: int, count: nat): (r: int)
    ensures r <= count - 1 && r <= selected + 1
    ensures r == count - 1 || r == selected + 1
  {
    if count - 1 < selected + 1 then count - 1 else selected + 1
  }

  /** The arrows keep a selection inside a non-empty list. */
  lemma CursorStaysInList(selected: int, count: nat)
    requires 0 <= selected < count
    ensures 0 <= CursorUp(selected) < count
    ensures 0 <= CursorDown(selected, count) < count
    ensures CursorUp(selected) == selected - 1 || (selected == 0 && CursorUp(selected) == 0)
    ensures CursorDown(selected, count) == selected + 1 || (selected == count - 1 && CursorDown(selected, count) == selected)
  {
  }

  /** On an empty list ArrowDown leaves the index at -1, which names no element. */
  lemma CursorDownOnEmptyList(selected: int)
    requires selected >= -2
    ensures CursorDown(selected, 0) == -1
  {
  }

  /** Up undoes Down and Down undoes Up away from the ends of the list. */
  lemma CursorUpDownInverse(selected: int, count: nat)
    ensures 0 <= selected < count - 1 ==> CursorUp(CursorDown(selected, count)) == selected
    ensures 0 < selected < count ==> CursorDown(CursorUp(selected), count) == selected
  {
  }

  /** What a key press asks for: nothing, the item action on an element, or leaving. */
  datatype ListEffect = NoEffect | Activate(item: Item, index: nat) | Leave

  datatype ListStep = ListStep(selected: int, effect: ListEffect)

  /** The window key handler of the list pages: arrows move the cursor, Enter
      activates the selected element only when it exists, Escape leaves. */
  function ListKey(key: Key, filtered: seq<Item>, selected: int): (r: ListStep)
    ensures r.effect.Activate? <==> key == Enter && 0 <= selected < |filtered|
    ensures r.effect.Activate? ==> r.effect.index == selected && r.effect.item == filtered[selected]
    ensures r.effect.Leave? <==> key == Escape
    ensures 0 <= selected < |filtered| ==> 0 <= r.selected < |filtered|
    ensures |filtered| == 0 && -1 <= selected <= 0 ==> -1 <= r.selected <= 0
    ensures key == ArrowUp ==> r.selected == CursorUp(selected)
    ensures key == ArrowDown ==> r.selected == CursorDown(selected, |filtered|)
    ensures key != ArrowUp && key != ArrowDown ==> r.selected == selected
  {
    match key
    case ArrowUp => ListStep(CursorUp(selected), NoEffect)
    case ArrowDown => ListStep(CursorDown(selected, |filtered|), NoEffect)
    case Escape => ListStep(selected, Leave)
    case Enter =>
      if 0 <= selected < |filtered| then ListStep(selected, Activate(filtered[selected], selected))
      else ListStep(selected, NoEffect)
    case _ => ListStep(selected, NoEffect)
  }

  // ---------------------------------------------------------------------------
  // Title formatting

  /** `word.charAt(0).toUpperCase() + word.slice(1).toUpperCase()`. */
  function UpperWord(w: string): (r: string)
    ensures r == Upper(w)
  {
    if w == "" then "" else
      UpperAppend(w[..1], w[1..]);
      assert w[..1] + w[1..] == w;
      Upper(w[..1]) + Upper(w[1..])
  }

  function UpperWords(words: seq<string>): (r: seq<string>)
    ensures |r| == |words|
    ensures forall k :: 0 <= k < |words| ==> r[k] == UpperWord(words[k])
  {
    seq(|words|, k requires 0 <= k < |words| => UpperWord(words[k]))
  }

  /** The title text: every underscore a space, every letter upper case. */
  function Spaced(s: string): (r: string)
    ensures |r| == |s|
  {
    seq(|s|, i requires 0 <= i < |s| => if s[i] == '_' then ' ' else UpperChar(s[i]))
  }

  lemma {:induction false} FormatIsSpaced(s: string)
    ensures Join(UpperWords(Split(s, '_')), ' ') == Spaced(s)
    decreases |s|
  {
    if s == "" {
      assert UpperWords([""]) == [""];
    } else {
      FormatIsSpaced(s[1..]);
      SpacedCons(s);
      if s[0] == '_' {
        FormatUnderscore(s);
      } else {
        FormatLetter(s);
      }
    }
  }

  lemma SpacedCons(s: string)
    requires s != ""
    ensures Spaced(s) == [if s[0] == '_' then ' ' else UpperChar(s[0])] + Spaced(s[1..])
  {
  }

  /** A leading underscore starts an empty first word, joined to the rest by a space. */
  lemma FormatUnderscore(s: string)
    requires s != "" && s[0] == '_'
    ensures Join(UpperWords(Split(s, '_')), ' ') == [' '] + Join(UpperWords(Split(s[1..], '_')), ' ')
  {
    var upperRest := UpperWords(Split(s[1..], '_'));
    assert UpperWords(Split(s, '_')) == [""] + upperRest;
    assert ([""] + upperRest)[1..] == upperRest;
  }

  /** A leading letter is upper-cased onto the first word. */
  lemma FormatLetter(s: string)
    requires s != "" && s[0] != '_'
    ensures Join(UpperWords(Split(s, '_')), ' ') == [UpperChar(s[0])] + Join(UpperWords(Split(s[1..], '_')), ' ')
  {
    var rest := Split(s[1..], '_');
    assert Split(s, '_') == [[s[0]] + rest[0]] + rest[1..];
    UpperWordsConsFirst(s[0], rest);
    JoinConsFirst(UpperChar(s[0]), UpperWords(rest), ' ');
  }

  /** Upper-casing the words after prepending a character to the first word
      prepends its upper-case form to the first upper-cased word. */
  lemma UpperWordsConsFirst(c: char, words: seq<string>)
    requires |words| >= 1
    ensures UpperWords([[c] + words[0]] + words[1..])
         == [[UpperChar(c)] + UpperWords(words)[0]] + UpperWords(words)[1..]
  {
    var ws := [[c] + words[0]] + words[1..];
    var upper := UpperWords(words);
    assert UpperWord([c] + words[0]) == [UpperChar(c)] + upper[0] by {
      UpperAppend([c], words[0]);
    }
    assert forall k :: 1 <= k < |ws| ==> ws[k] == words[k];
  }

  /** `formatType(str)`: '' for a falsy (missing or empty) string; otherwise
      the '_'-separated words upper-cased and joined by single spaces, so each
      underscore becomes a space and each letter its upper-case form. */
  function FormatType(t: Option<string>): (r: string)
    ensures t.None? || t.value == "" ==> r == ""
    ensures t.Some? ==> |r| == |t.value|
    ensures t.Some? ==> forall i :: 0 <= i < |r| ==>
      r[i] == (if t.value[i] == '_' then ' ' else UpperChar(t.value[i]))
  {
    if t.None? || t.value == "" then ""
    else
      FormatIsSpaced(t.value);
      Join(UpperWords(Split(t.value, '_')), ' ')
  }

  /** The formatted title keeps the words: splitting it at spaces gives the
      upper-cased '_'-separated words of a space-free page type. */
  lemma FormatTypeWords(t: string)
    requires t != "" && ' ' !in t
    ensures Split(FormatType(Some(t)), ' ') == UpperWords(Split(t, '_'))
  {
    var words := UpperWords(Split(t, '_'));
    forall k | 0 <= k < |words|
      ensures ' ' !in words[k]
    {
      var w := Split(t, '_')[k];
      assert forall c :: c in w ==> c in t by {
        JoinSplitMembers(t, '_', k);
      }
      assert words[k] == Upper(w);
      forall i | 0 <= i < |w|
        ensures words[k][i] != ' '
      {
        assert w[i] in w;
      }
    }
    SplitJoin(words, ' ');
  }

  /** Every character of a split part occurs in the split string. */
  lemma {:induction false} JoinSplitMembers(s: string, sep: char, k: nat)
    requires k < |Split(s, sep)|
    ensures forall c :: c in Split(s, sep)[k] ==> c in s
    decreases |s|
  {
    if s != "" {
      var rest := Split(s[1..], sep);
      if s[0] == sep {
        if k > 0 {
          JoinSplitMembers(s[1..], sep, k - 1);
        }
      } else if k == 0 {
        JoinSplitMembers(s[1..], sep, 0);
      } else {
        JoinSplitMembers(s[1..], sep, k);
      }
    }
  }
}

=== FILE: master_viewer.dfy ===
/** The master list viewer page (`ViewFetchMaster`): its module configuration,
    the consolidated/normal ledger view toggle, the fetch and search transitions
    of its list state, key handling and item-click navigation. Requests and
    responses are parameters: the page's effects are modelled as transitions. */
module MasterViewer {
  import opened Options
  import opened JsValues
  import opened Text
  import opened MasterList

  /** `consolidationStatus`: which ledger list the page shows. */
  datatype LinkView = Active | Inactive

  function Toggle(v: LinkView): LinkView {
    if v == Active then Inactive else Active
  }

  /** The ledger configuration's dynamic endpoint. */
  function LedgerEndpoint(view: LinkView): string {
    if view == Active then "/consolidated" else "/ledgers"
  }

  /** The page types with a configuration. */
  const ConfiguredTypes: set<string> := {"main-group", "sub-group", "ledger", "division"}

  /** `moduleConfig[type]`. */
  function ModuleFor(pageType: string, view: LinkView): (m: Option<ModuleConfig>)
    ensures m.Some? <==> pageType in ConfiguredTypes
  {
    if pageType == "main-group" then
      Some(ModuleConfig("Main Group Items", "/main_groups", "MainGroupNames",
                        ["main_group_name", "main_group_code", "report", "status"]))
    else if pageType == "sub-group" then
      Some(ModuleConfig("Sub Group Items", "/sub_groups", "SubGroupNames",
                        ["sub_group_name", "sub_group_code", "report", "status"]))
    else if pageType == "ledger" then
      Some(ModuleConfig("Ledgers", LedgerEndpoint(view), "LedgerNames",
                        ["ledger_name", "ledger_code", "tally_report", "status", "link_status"]))
    else if pageType == "division" then
      Some(ModuleConfig("Divisions", "/divisions", "DivisionNames",
                        ["division_name", "division_code", "report", "status"]))
    else None
  }

  /** The ledger list comes from '/consolidated' exactly in the consolidated
      view and from '/ledgers' otherwise; no other page type depends on the view. */
  lemma EndpointChoice(pageType: string, view: LinkView)
    requires pageType in ConfiguredTypes
    ensures pageType == "ledger" ==>
      (ModuleFor(pageType, view).value.endpoint == "/consolidated" <==> view == Active)
    ensures pageType == "ledger" ==>
      (ModuleFor(pageType, view).value.endpoint == "/ledgers" <==> view == Inactive)
    ensures pageType != "ledger" ==> ModuleFor(pageType, view) == ModuleFor(pageType, Toggle(view))
  {
  }

  /** The state the page keeps. `selected` is an index into `filtered`.
      `shownIsData` records that `filtered` is the very array held in `data`
      (the same object, not only equal contents), which decides whether React
      sees a new `filteredData` and so runs the selection reset. */
  datatype Viewer = Viewer(
    pageType: Option<string>,
    data: seq<Item>,
    filtered: seq<Item>,
    shownIsData: bool,
    searchTerm: string,
    selected: int,
    loading: bool,
    error: Option<string>,
    hasFetched: bool,
    view: LinkView)

  /** The first render: two distinct empty arrays, loading, nothing fetched. */
  function Init(pageType: Option<string>): Viewer {
    Viewer(pageType, [], [], false, "", 0, true, None, false, Inactive)
  }

  function Module(s: Viewer): Option<ModuleConfig> {
    if s.pageType.None? then None else ModuleFor(s.pageType.value, s.view)
  }

  /** The fetch effect: the endpoint it requests, if it requests anything.
      It stays quiet without a page type, without a configuration, or once
      the data has been fetched. */
  function PendingRequest(s: Viewer): (r: Option<string>)
    ensures r.Some? <==>
      s.pageType.Some? && s.pageType.value in ConfiguredTypes && !s.hasFetched
    ensures r.Some? ==> r.value == Module(s).value.endpoint
  {
    if s.pageType.None? || s.pageType.value == "" || Module(s).None? || s.hasFetched then None
    else Some(Module(s).value.endpoint)
  }

  /** The start of the fetch: the page shows loading and drops the old error,
      and the request is still the one to make. */
  function StartFetch(s: Viewer): (r: Viewer)
    requires PendingRequest(s).Some?
    ensures r.loading && r.error.None?
    ensures PendingRequest(r) == PendingRequest(s)
    ensures r.data == s.data && r.filtered == s.filtered && r.shownIsData == s.shownIsData
    ensures r.selected == s.selected && r.searchTerm == s.searchTerm && r.view == s.view
  {
    s.(loading := true, error := None)
  }

  /** What the backend answered to the fetch. */
  datatype FetchOutcome = Fetched(items: seq<Item>) | FetchFailed

  /** Whether the search effect, when it runs, hands React an array other than
      the one shown, so that `filteredData` changes and the selection is reset.
      A blank term returns `data` itself, which is no change when it is already
      shown; a non-blank term always builds a new array. */
  predicate SearchEffectUpdates(s: Viewer) {
    |s.data| > 0 && (Module(s).None? || !Blank(s.searchTerm) || !s.shownIsData)
  }

  /** The search effect: with data present it shows the filter's result, and a
      new shown array resets the selection to 0. */
  function Refilter(s: Viewer): (r: Viewer)
    ensures r.searchTerm == s.searchTerm && r.data == s.data && r.view == s.view
    ensures r.pageType == s.pageType && r.hasFetched == s.hasFetched
    ensures r.loading == s.loading && r.error == s.error
    ensures !SearchEffectUpdates(s) ==> r == s
    ensures SearchEffectUpdates(s) ==> r.selected == 0
    ensures |s.data| > 0 ==> (r.shownIsData <==> Module(s).Some? && Blank(s.searchTerm))
    ensures |s.data| > 0 && Module(s).None? ==> r.filtered == []
    ensures |s.data| > 0 && Module(s).Some? && Blank(s.searchTerm) && !s.shownIsData ==> r.filtered == s.data
    ensures |s.data| > 0 && Module(s).Some? && !Blank(s.searchTerm) ==>
      && IsSubsequence(r.filtered, s.data)
      && (forall x :: x in s.data ==> (x in r.filtered <==> ItemMatches(Module(s).value.fields, x, s.searchTerm)))
      && (forall x :: multiset(r.filtered)[x] ==
            if ItemMatches(Module(s).value.fields, x, s.searchTerm) then multiset(s.data)[x] else 0)
  {
    if |s.data| == 0 then s
    else if Module(s).Some? && Blank(s.searchTerm) && s.shownIsData then s
    else s.(filtered := FilterData(Module(s), Some(s.data), s.searchTerm),
            shownIsData := Module(s).Some? && Blank(s.searchTerm), selected := 0)
  }

  /** The fetch effect's completion. The fetched array becomes both `data` and
      `filteredData`, a new `filteredData` resets the selection to 0, and the
      new data runs the search effect, so a search term kept across a toggle
      still applies. */
  function ReceiveFetch(s: Viewer, outcome: FetchOutcome): (r: Viewer)
    requires PendingRequest(s).Some?
    ensures !r.loading && r.view == s.view && r.pageType == s.pageType
    ensures r.selected == 0 && r.searchTerm == s.searchTerm
    ensures outcome.Fetched? ==> r.data == outcome.items && r.hasFetched && r.error.None?
    ensures outcome.Fetched? ==> (r.shownIsData <==> Blank(s.searchTerm) || |outcome.items| == 0)
    ensures outcome.FetchFailed? ==> !r.shownIsData
    ensures outcome.Fetched? && (Blank(s.searchTerm) || |outcome.items| == 0) ==> r.filtered == outcome.items
    ensures outcome.Fetched? && !Blank(s.searchTerm) ==>
      && IsSubsequence(r.filtered, outcome.items)
      && (forall x :: x in outcome.items ==>
            (x in r.filtered <==> ItemMatches(Module(s).value.fields, x, s.searchTerm)))
      && (forall x :: multiset(r.filtered)[x] ==
            if ItemMatches(Module(s).value.fields, x, s.searchTerm) then multiset(outcome.items)[x] else 0)
    ensures outcome.FetchFailed? ==>
      && r.data == [] && r.filtered == [] && !r.hasFetched
      && r.error == Some("Failed to fetch " + Lower(Module(s).value.title))
  {
    match outcome
    case Fetched(items) =>
      var t := s.(data := items, filtered := items, shownIsData := true, hasFetched := true,
                  loading := false, error := None, selected := 0);
      assert Module(t) == Module(s);
      Refilter(t)
    case FetchFailed =>
      s.(error := Some("Failed to fetch " + Lower(Module(s).value.title)),
         data := [], filtered := [], shownIsData := false, loading := false, selected := 0)
  }

  /** Typing into the search box; the search effect then runs if there is data. */
  function SearchChange(s: Viewer, term: string): (r: Viewer)
    ensures r.searchTerm == term && r.data == s.data && r.view == s.view
    ensures r.pageType == s.pageType && r.hasFetched == s.hasFetched
    ensures r.loading == s.loading && r.error == s.error
    ensures |s.data| == 0 ==> r.filtered == s.filtered && r.selected == s.selected
    ensures |s.data| > 0 && Module(s).Some? && Blank(term) && s.shownIsData ==> r == s.(searchTerm := term)
    ensures |s.data| > 0 && !(Module(s).Some? && Blank(term) && s.shownIsData) ==> r.selected == 0
    ensures |s.data| > 0 && Module(s).None? ==> r.filtered == []
    ensures |s.data| > 0 && Module(s).Some? && Blank(term) && !s.shownIsData ==> r.filtered == s.data
    ensures |s.data| > 0 && Module(s).Some? && !Blank(term) ==>
      && IsSubsequence(r.filtered, s.data)
      && (forall x :: x in s.data ==> (x in r.filtered <==> ItemMatches(Module(s).value.fields, x, term)))
      && (forall x :: multiset(r.filtered)[x] ==
            if ItemMatches(Module(s).value.fields, x, term) then multiset(s.data)[x] else 0)
  {
    Refilter(s.(searchTerm := term))
  }

  /** `toggleConsolidationStatus`, whose button is rendered only on the ledger
      page and is disabled during a fetch: flips the view and drops the fetched
      data so that the fetch effect runs again. */
  function ToggleView(s: Viewer): (r: Viewer)
    requires s.pageType == Some("ledger") && !s.loading
    ensures r.view != s.view
    ensures r.data == [] && r.filtered == [] && !r.hasFetched && r.selected == 0
    ensures r.pageType == s.pageType && r.searchTerm == s.searchTerm && !r.loading
    ensures r.error == s.error
  {
    s.(view := Toggle(s.view), hasFetched := false, data := [], filtered := [], shownIsData := false, selected := 0)
  }

  /** Toggling twice restores the view and everything else, except that the
      list is emptied for a refetch. */
  lemma ToggleTwice(s: Viewer)
    requires s.pageType == Some("ledger") && !s.loading
    ensures ToggleView(ToggleView(s)) ==
      s.(data := [], filtered := [], shownIsData := false, hasFetched := false, selected := 0)
  {
  }

  /** On the ledger page a toggle makes the page request the other list. */
  lemma ToggleRequestsOtherList(s: Viewer)
    requires s.pageType == Some("ledger") && !s.loading
    ensures PendingRequest(ToggleView(s)) == Some(if s.view == Active then "/ledgers" else "/consolidated")
  {
  }

  /** After a successful fetch no further request is made until the next toggle. */
  lemma FetchedDataIsNotRefetched(s: Viewer, items: seq<Item>, term: string, key: Key)
    requires PendingRequest(s).Some?
    ensures PendingRequest(ReceiveFetch(s, Fetched(items))).None?
    ensures PendingRequest(SearchChange(ReceiveFetch(s, Fetched(items)), term)).None?
    ensures PendingRequest(PressKey(ReceiveFetch(s, Fetched(items)), key).0).None?
  {
  }

  /** `handleItemClick`: remembers the index, then navigates by page type.
      Main groups are opened by `item_code` and sub-groups by `customer_code`,
      as the page writes them. The division case falls through to `default`,
      which does nothing more. */
  function ItemRoute(pageType: Option<string>, item: Item): (nav: Navigation)
    ensures nav.Go? <==> pageType.Some? && pageType.value in ConfiguredTypes
    ensures pageType == Some("main-group") ==> nav == Go("/master-group-view/" + ToString(Field(item, "item_code")))
    ensures pageType == Some("sub-group") ==> nav == Go("/sub-group-view/" + ToString(Field(item, "customer_code")))
    ensures pageType == Some("ledger") ==> nav == Go("/consolidated/ledger/" + ToString(Field(item, "ledger_code")))
    ensures pageType == Some("division") ==> nav == Go("/division-view/" + ToString(Field(item, "id")))
  {
    if pageType == Some("main-group") then Go("/master-group-view/" + ToString(Field(item, "item_code")))
    else if pageType == Some("sub-group") then Go("/sub-group-view/" + ToString(Field(item, "customer_code")))
    else if pageType == Some("ledger") then Go("/consolidated/ledger/" + ToString(Field(item, "ledger_code")))
    else if pageType == Some("division") then Go("/division-view/" + ToString(Field(item, "id")))
    else Stay
  }

  /** A click on the list element at `index`. */
  function ClickItem(s: Viewer, index: nat): (r: (Viewer, Navigation))
    requires index < |s.filtered|
    ensures r.0 == s.(selected := index)
    ensures r.1 == ItemRoute(s.pageType, s.filtered[index])
    ensures r.1.Go? <==> s.pageType.Some? && s.pageType.value in ConfiguredTypes
    ensures s.pageType == Some("ledger") ==>
      r.1 == Go("/consolidated/ledger/" + ToString(Field(s.filtered[index], "ledger_code")))
  {
    (s.(selected := index), ItemRoute(s.pageType, s.filtered[index]))
  }

  /** The window key handler. */
  function PressKey(s: Viewer, key: Key): (r: (Viewer, Navigation))
    ensures r.0 == s.(selected := r.0.selected)
    ensures key == ArrowUp ==> r.0.selected == CursorUp(s.selected)
    ensures key == ArrowDown ==> r.0.selected == CursorDown(s.selected, |s.filtered|)
    ensures key != ArrowUp && key != ArrowDown ==> r.0.selected == s.selected
    ensures r.1.Go? ==> key == Enter && 0 <= s.selected < |s.filtered|
    ensures r.1.Back? <==> key == Escape
    ensures key == Enter && 0 <= s.selected < |s.filtered| ==>
      r.1 == ItemRoute(s.pageType, s.filtered[s.selected])
  {
    var step := ListKey(key, s.filtered, s.selected);
    match step.effect
    case NoEffect => (s.(selected := step.selected), Stay)
    case Leave => (s.(selected := step.selected), Back)
    case Activate(item, index) => ClickItem(s, index)
  }

  /** The page's standing invariant: the shown list is a sub-list of the data
      (the data itself when it is the same array), and the selection names an
      element, or is 0 or -1 on an empty list. */
  ghost predicate Valid(s: Viewer) {
    && IsSubsequence(s.filtered, s.data)
    && (s.shownIsData ==> s.filtered == s.data)
    && (|s.filtered| > 0 ==> 0 <= s.selected < |s.filtered|)
    && (|s.filtered| == 0 ==> -1 <= s.selected <= 0)
  }

  lemma InitValid(pageType: Option<string>)
    ensures Valid(Init(pageType))
  {
  }

  /** Every transition of the page keeps it valid. */
  lemma TransitionsPreserveValid(s: Viewer, outcome: FetchOutcome, term: string, key: Key, index: nat)
    requires Valid(s)
    ensures PendingRequest(s).Some? ==> Valid(StartFetch(s))
    ensures PendingRequest(s).Some? ==> Valid(ReceiveFetch(s, outcome))
    ensures Valid(SearchChange(s, term))
    ensures s.pageType == Some("ledger") && !s.loading ==> Valid(ToggleView(s))
    ensures Valid(PressKey(s, key).0)
    ensures index < |s.filtered| ==> Valid(ClickItem(s, index).0)
  {
    if PendingRequest(s).Some? {
      FetchPreservesValid(s, outcome);
    }
    SearchPreservesValid(s, term);
  }

  lemma FetchPreservesValid(s: Viewer, outcome: FetchOutcome)
    requires PendingRequest(s).Some?
    ensures Valid(ReceiveFetch(s, outcome))
  {
    if outcome.Fetched? {
      SubsequenceReflexive(outcome.items);
      FilterIsSubsequence(Module(s).value, outcome.items, s.searchTerm);
    }
  }

  lemma SearchPreservesValid(s: Viewer, term: string)
    requires Valid(s)
    ensures Valid(SearchChange(s, term))
  {
    if |s.data| > 0 && Module(s).Some? {
      FilterIsSubsequence(Module(s).value, s.data, term);
    } else if |s.data| == 0 {
      SubsequenceOfEmpty(s.filtered);
    }
  }

  // ---------------------------------------------------------------------------
  // When the search effect runs

  /** The effects after a render of the page as written. `filterData` is
      rebuilt on every render, because it depends on `currentModule`, a fresh
      object each time; so the search effect runs after every render, not only
      when the search term or the data changed. */
  function AfterRenderAsWritten(s: Viewer): (r: Viewer)
    ensures r.data == s.data && r.searchTerm == s.searchTerm
    ensures r.pageType == s.pageType && r.view == s.view
    ensures !SearchEffectUpdates(s) ==> r == s
    ensures SearchEffectUpdates(s) ==> r.selected == 0
  {
    Refilter(s)
  }

  /** The page after `n` further renders as written, each one caused by the
      state update of the one before. */
  function RendersAsWritten(s: Viewer, n: nat): (r: Viewer)
    ensures r.data == s.data && r.searchTerm == s.searchTerm
    ensures r.pageType == s.pageType && r.view == s.view
    decreases n
  {
    if n == 0 then s else RendersAsWritten(AfterRenderAsWritten(s), n - 1)
  }

  /** As written, a non-blank search never settles: every run of the search
      effect hands React a new array, whose render runs the effect again, and
      every run puts the selection back on the first element. */
  lemma {:induction false} SearchLoopsAsWritten(s: Viewer, n: nat)
    requires |s.data| > 0 && Module(s).Some? && !Blank(s.searchTerm)
    ensures SearchEffectUpdates(RendersAsWritten(s, n))
    ensures n > 0 ==> RendersAsWritten(s, n).selected == 0
    decreases n
  {
    if n > 0 {
      var t := AfterRenderAsWritten(s);
      assert Module(t) == Module(s);
      SearchLoopsAsWritten(t, n - 1);
      if n > 1 {
        assert RendersAsWritten(s, n) == RendersAsWritten(AfterRenderAsWritten(t), n - 2);
      }
    }
  }

  /** As written, ArrowDown during a non-blank search is undone by the render
      it causes: the selection moves to the second element and back to the first. */
  lemma ArrowDownUndoneAsWritten(s: Viewer)
    requires Valid(s) && |s.data| > 0 && Module(s).Some? && !Blank(s.searchTerm)
    requires |s.filtered| >= 2 && s.selected == 0
    ensures PressKey(s, ArrowDown).0.selected == 1
    ensures AfterRenderAsWritten(PressKey(s, ArrowDown).0).selected == 0
  {
    var t := PressKey(s, ArrowDown).0;
    assert Module(t) == Module(s);
  }

  /** The schedule the effect's dependency list evidently intends: the search
      effect runs only after a render in which the search term or the data
      changed. */
  function AfterRender(prev: Viewer, s: Viewer): (r: Viewer)
    ensures r.data == s.data && r.searchTerm == s.searchTerm
    ensures prev.searchTerm == s.searchTerm && prev.data == s.data ==> r == s
    ensures !SearchEffectUpdates(s) ==> r == s
    ensures (prev.searchTerm != s.searchTerm || prev.data != s.data) && SearchEffectUpdates(s) ==> r.selected == 0
  {
    if prev.searchTerm == s.searchTerm && prev.data == s.data then s else Refilter(s)
  }

  /** With the intended schedule the arrow keys move the selection for good,
      whatever the search term, and the page then settles. */
  lemma ArrowKeysKept(s: Viewer, key: Key)
    requires Valid(s)
    ensures var t := PressKey(s, key).0;
      && AfterRender(s, t) == t
      && (key == ArrowDown && 0 <= s.selected < |s.filtered| - 1 ==> AfterRender(s, t).selected == s.selected + 1)
      && (key == ArrowUp && 0 < s.selected < |s.filtered| ==> AfterRender(s, t).selected == s.selected - 1)
  {
  }

  /** With the intended schedule, typing a new term runs the search effect once,
      which is `SearchChange`, and the render that follows runs nothing more. */
  lemma SearchSettles(s: Viewer, term: string)
    ensures term != s.searchTerm ==> AfterRender(s, s.(searchTerm := term)) == SearchChange(s, term)
    ensures var t := SearchChange(s, term);
      AfterRender(t, t) == t
  {
  }
}

=== FILE: options.dfy ===
/** An optional value: `None` stands for JavaScript's `undefined`/`null` where the
    source tests a value for presence. */
module Options {

  datatype Option<+T> = None | Some(value: T)
}

=== FILE: text.dfy ===
/** String operations of JavaScript that the pages use: `trim`, `toLowerCase`,
    `toUpperCase`, `includes`, `split` on one character and `join`.
    Case mapping is ASCII-only; `trim` uses the full ECMAScript white-space set. */
module Text {

  /** ECMAScript WhiteSpace and LineTerminator code points, which `trim` removes. */
  predicate IsWhitespace(c: char) {
    || c == '\t' || c == '\n' || c == '\U{000B}' || c == '\U{000C}' || c == '\r' || c == ' '
    || c == '\U{00A0}' || c == '\U{1680}' || ('\U{2000}' <= c <= '\U{200A}')
    || c == '\U{2028}' || c == '\U{2029}' || c == '\U{202F}' || c == '\U{205F}'
    || c == '\U{3000}' || c == '\U{FEFF}'
  }

  /** Every character of `s` is white space (so `s.trim() === ''`). */
  predicate Blank(s: string) {
    forall i :: 0 <= i < |s| ==> IsWhitespace(s[i])
  }

  /** `s.trimStart()`: the suffix left after dropping leading white space. */
  function TrimStart(s: string): (r: string)
    ensures |r| <= |s| && r == s[|s| - |r|..]
    ensures forall i :: 0 <= i < |s| - |r| ==> IsWhitespace(s[i])
    ensures r != "" ==> !IsWhitespace(r[0])
    decreases |s|
  {
    if s != "" && IsWhitespace(s[0]) then TrimStart(s[1..]) else s
  }

  /** `s.trimEnd()`: the prefix left after dropping trailing white space. */
  function TrimEnd(s: string): (r: string)
    ensures |r| <= |s| && r == s[..|r|]
    ensures forall i :: |r| <= i < |s| ==> IsWhitespace(s[i])
    ensures r != "" ==> !IsWhitespace(r[|r| - 1])
    decreases |s|
  {
    if s != "" && IsWhitespace(s[|s| - 1]) then TrimEnd(s[..|s| - 1]) else s
  }

  /** `s.trim()`. */
  function Trim(s: string): string {
    TrimEnd(TrimStart(s))
  }

  /** `s.trim() === ''` holds exactly for the all-white-space strings. */
  lemma TrimEmptyIffBlank(s: string)
    ensures Trim(s) == "" <==> Blank(s)
  {
    var t := TrimStart(s);
    if Trim(s) == "" {
      // the first character of a non-empty TrimStart is not white space, so TrimEnd
      // could only have removed everything from an empty string
      assert t == "";
      assert s[..|s|] == s;
    }
    if Blank(s) {
      assert t == "";
    }
  }

  /** A string with a non-white-space character keeps it after anything is appended. */
  lemma NonBlankAppend(s: string, t: string)
    requires !Blank(s)
    ensures !Blank(s + t)
  {
    var i :| 0 <= i < |s| && !IsWhitespace(s[i]);
    assert (s + t)[i] == s[i];
  }

  function LowerChar(c: char): char {
    if 'A' <= c <= 'Z' then (c as int + 32) as char else c
  }

  function UpperChar(c: char): char {
    if 'a' <= c <= 'z' then (c as int - 32) as char else c
  }

  /** `s.toLowerCase()`, ASCII letters only. */
  function Lower(s: string): (r: string)
    ensures |r| == |s|
    ensures forall i :: 0 <= i < |s| ==> r[i] == LowerChar(s[i])
  {
    seq(|s|, i requires 0 <= i < |s| => LowerChar(s[i]))
  }

  /** `s.toUpperCase()`, ASCII letters only. */
  function Upper(s: string): (r: string)
    ensures |r| == |s|
    ensures forall i :: 0 <= i < |s| ==> r[i] == UpperChar(s[i])
  {
    seq(|s|, i requires 0 <= i < |s| => UpperChar(s[i]))
  }

  lemma LowerAppend(a: string, b: string)
    ensures Lower(a + b) == Lower(a) + Lower(b)
  {
  }

  lemma UpperAppend(a: string, b: string)
    ensures Upper(a + b) == Upper(a) + Upper(b)
  {
  }

  /** `hay.includes(needle)`: `needle` occurs in `hay` at some position. */
  predicate Contains(hay: string, needle: string) {
    exists i :: 0 <= i <= |hay| && needle <= hay[i..]
  }

  /** A string only includes strings no longer than itself. */
  lemma ContainsLength(hay: string, needle: string)
    requires Contains(hay, needle)
    ensures |needle| <= |hay|
  {
  }

  /** A string that includes `a + b` includes `a`. */
  lemma ContainsPrefixOfNeedle(hay: string, a: string, b: string)
    requires Contains(hay, a + b)
    ensures Contains(hay, a)
  {
    var i :| 0 <= i <= |hay| && a + b <= hay[i..];
    assert a <= hay[i..];
  }

  /** `s.split(sep)` for a one-character separator: the maximal runs between
      separators, so there is always at least one (possibly empty) part. */
  function Split(s: string, sep: char): (parts: seq<string>)
    ensures |parts| >= 1
    ensures forall k :: 0 <= k < |parts| ==> sep !in parts[k]
    decreases |s|
  {
    if s == "" then [""]
    else
      var rest := Split(s[1..], sep);
      if s[0] == sep then [""] + rest
      else [[s[0]] + rest[0]] + rest[1..]
  }

  /** `parts.join(sep)`. */
  function Join(parts: seq<string>, sep: char): string
    decreases |parts|
  {
    if |parts| == 0 then ""
    else if |parts| == 1 then parts[0]
    else parts[0] + [sep] + Join(parts[1..], sep)
  }

  /** Prepending a character to the first part prepends it to the joined string. */
  lemma JoinConsFirst(c: char, parts: seq<string>, sep: char)
    requires |parts| >= 1
    ensures Join([[c] + parts[0]] + parts[1..], sep) == [c] + Join(parts, sep)
  {
    var ps := [[c] + parts[0]] + parts[1..];
    assert ps[1..] == parts[1..];
  }

  /** Joining the parts of a split with the same separator gives back the string. */
  lemma {:induction false} JoinSplit(s: string, sep: char)
    ensures Join(Split(s, sep), sep) == s
    decreases |s|
  {
    if s != "" {
      var rest := Split(s[1..], sep);
      JoinSplit(s[1..], sep);
      if s[0] == sep {
        assert ([""] + rest)[1..] == rest;
        assert Join([""] + rest, sep) == "" + [sep] + Join(rest, sep);
      } else {
        JoinConsFirst(s[0], rest, sep);
      }
      assert s == [s[0]] + s[1..];
    }
  }

  /** Splitting a join of separator-free parts gives back the parts. */
  lemma {:induction false} SplitJoin(parts: seq<string>, sep: char)
    requires |parts| >= 1
    requires forall k :: 0 <= k < |parts| ==> sep !in parts[k]
    ensures Split(Join(parts, sep), sep) == parts
    decreases |parts|, |parts[0]|
  {
    var first := parts[0];
    if first == "" {
      if |parts| > 1 {
        var tail := parts[1..];
        SplitJoin(tail, sep);
        var s := Join(parts, sep);
        assert s == [sep] + Join(tail, sep);
        assert s[1..] == Join(tail, sep);
        assert parts == [""] + tail;
      }
    } else {
      var shorter := [first[1..]] + parts[1..];
      assert shorter[1..] == parts[1..];
      SplitJoin(shorter, sep);
      JoinConsFirst(first[0], shorter, sep);
      assert first == [first[0]] + first[1..];
      assert [[first[0]] + shorter[0]] + shorter[1..] == parts;
      var s := Join(parts, sep);
      assert s == [first[0]] + Join(shorter, sep);
      assert s[1..] == Join(shorter, sep);
      assert s[0] == first[0] && first[0] != sep;
      assert [[s[0]] + shorter[0]] + shorter[1..] == parts;
    }
  }
}
